=== FILE: README.md ===
# Expense tracker: a Dafny model

This project models the deterministic core of an expense tracker. The tracker
has a Spring back end and a React front end, and signs users in through
Supabase.

On the back end it models:

- **the transaction ledger**:
  - owner-checked get, create, update and delete;
  - the repository's queries, where a null filter constrains nothing, the date
    bounds are inclusive and the order is by date, descending;
  - the summary loop, which yields the income and expense totals, the balance,
    the per-category breakdown and the count;
- **the category table**, whose invariant is that no user has two categories
  with the same name and the same type;
- **the template service**: which Mustache template each message uses and what
  its context holds (the 10000.00 advice threshold, the monthly report's tip);
- **both controllers**:
  - the bearer header;
  - the choice between the filtered and the full query;
  - the response envelopes and the HTTP status of every failure;
  - the PDF download's rows, filename and Content-Length;
- **the figures of the PDF report**: totals, balance colour, period label, the
  "Category xxxxxxxx" grouping, and the row strings.

On the front end it models:

- the API client's base URL, its bearer interceptor and its routes;
- the OTP sign-in screen;
- the login / sign-up screen;
- the password change in Settings;
- the handlers of the Transactions page.

Layout, one module per file:

| module | what it holds |
|---|---|
| `Wrappers`, `Text`, `Calendar`, `Money`, `Seqs` | the value types the rest needs |
| `Domain` | the records |
| `TransactionRepository`, `CategoryRepository` | the queries, as pure functions over a table |
| `TransactionService`, `CategoryService` | classes holding the tables, with methods that change them |
| `TemplateService`, `PdfService` | functions returning what is rendered |
| `Http`, `TransactionController`, `CategoryController` | the request handlers |
| `ApiClient`, `OtpLogin`, `Login`, `Settings`, `TransactionsPage` | the front end; each screen is a class whose fields are its React state |

Modelling choices:

- **Amounts** are BigDecimal values of scale 2, held as `int` hundredths. The
  advice threshold 10000 is `HighAmount` = 1000000. `Money.AmountText` is
  BigDecimal's `toString` at scale 2.
- **Dates** are `LocalDate`s with years 1 to 9999. They are printed as
  yyyy-MM-dd, or as "MMM dd, yyyy" with English month abbreviations.
- **A table** is a sequence of rows with distinct ids. `ORDER BY` is a stable
  sort, so rows with equal keys keep their table order. Under `ORDER BY date
  DESC` a null date comes first.
- **Parameters**:
  - the id a save generates, with a freshness precondition;
  - today's date;
  - the Mustache engine;
  - the token-to-user-id function of `JwtConfig`;
  - the email claim of a token (a missing claim is printed as "User: null");
  - the PDF encoder;
  - the answers of Supabase and of the HTTP API.
- **Exceptions** are `Err` values carrying the exception's message.
- **A front-end handler** runs to its end in one step. Its `finally` block is
  the handler's last statement. A handler requires what the control that
  triggers it needs in order to be enabled (for example, Resend needs no
  loading and a cooldown of 0), because a disabled button does not fire.
- **The Transaction and Category entity classes** are not part of this model.
  Their fields are read from the services that use them.

The OTP screen's heading says "6-digit code"
(frontend/src/components/Auth/OtpLogin.jsx:136). The input field and the
verify gate both use eight digits. The model follows the code: `CodeLength` is 8.

## Model

| member | source | states |
|---|---|---|
| Calendar.ParseIsoTextRoundTrip | backend/src/main/java/com/expensetracker/controller/TransactionController.java:200-201 | the yyyy-MM-dd text of a date reads back as that date |
| Calendar.IsoTextInjective | backend/src/main/java/com/expensetracker/controller/TransactionController.java:200-201 | two dates with the same yyyy-MM-dd text are the same date |
| Calendar.IsoText | backend/src/main/java/com/expensetracker/controller/TransactionController.java:200-201 | LocalDate in the yyyy-MM-dd pattern: ten characters, dashes at positions 4 and 7 (read back by ParseIsoTextRoundTrip) |
| Calendar.MediumText | backend/src/main/java/com/expensetracker/service/PdfService.java:61-63 | a date in the "MMM dd, yyyy" pattern: always twelve characters |
| Calendar.MonthName | backend/src/main/java/com/expensetracker/service/TemplateService.java:79 | Month.toString(): three to nine upper-case letters |
| Money.ParseAmountText | backend/src/main/java/com/expensetracker/service/TemplateService.java:62 | the scale-2 text of an amount reads back as that amount, sign included |
| Money.AmountTextInjective | backend/src/main/java/com/expensetracker/service/TemplateService.java:62 | distinct amounts never print alike |
| Money.AmountText | backend/src/main/java/com/expensetracker/service/TemplateService.java:62 | BigDecimal.toString at scale 2: at least four characters, with a leading "-" iff the amount is negative (read back by ParseAmountText) |
| Seqs.FilterSort | backend/src/main/java/com/expensetracker/repository/CategoryRepository.java:15-17 | sorting and then selecting equals selecting and then sorting (stable sort) |
| Seqs.SortSorted | backend/src/main/java/com/expensetracker/repository/TransactionRepository.java:30 | the sort's output is ordered under a total preorder and is a permutation of its input |
| TransactionRepository.LaterOrSameIsTotalPreorder | backend/src/main/java/com/expensetracker/repository/TransactionRepository.java:30 | the date-descending order, nulls first, is total and transitive |
| TransactionRepository.FindById | backend/src/main/java/com/expensetracker/service/TransactionService.java:39-40 | the row with that id, or None exactly when no row has it |
| TransactionRepository.FindByUserIdOrderByDateDesc | backend/src/main/java/com/expensetracker/repository/TransactionRepository.java:17 | exactly the user's rows, each once at most, date descending |
| TransactionRepository.FindByUserIdAndDateBetweenOrderByDateDesc | backend/src/main/java/com/expensetracker/repository/TransactionRepository.java:19-20 | exactly the user's rows with start ≤ date ≤ end, date descending |
| TransactionRepository.FindByUserIdAndTypeOrderByDateDesc | backend/src/main/java/com/expensetracker/repository/TransactionRepository.java:22-23 | exactly the user's rows of that type, date descending |
| TransactionRepository.FindByFilters | backend/src/main/java/com/expensetracker/repository/TransactionRepository.java:25-36 | the user's rows meeting every non-null filter; inclusive bounds; a null date fails a given bound; date descending |
| TransactionRepository.FindByFiltersUnfiltered | backend/src/main/java/com/expensetracker/repository/TransactionRepository.java:25-30 | with every filter null the filter query is findByUserIdOrderByDateDesc |
| TransactionRepository.FindByFiltersDatesOnly | backend/src/main/java/com/expensetracker/repository/TransactionRepository.java:25-30 | with only both dates given the filter query is the BETWEEN query |
| TransactionRepository.FindByFiltersNarrows | backend/src/main/java/com/expensetracker/repository/TransactionRepository.java:25-30 | adding a filter keeps a subsequence of the answer |
| CategoryRepository.NameOrderIsTotalPreorder | backend/src/main/java/com/expensetracker/repository/CategoryRepository.java:15 | the name order is total and transitive |
| CategoryRepository.FindById | backend/src/main/java/com/expensetracker/service/CategoryService.java:29-30 | the row with that id, or None exactly when no row has it |
| CategoryRepository.FindByUserIdOrderByNameAsc | backend/src/main/java/com/expensetracker/repository/CategoryRepository.java:15 | exactly the user's categories, by name ascending |
| CategoryRepository.FindByUserIdAndTypeOrderByNameAsc | backend/src/main/java/com/expensetracker/repository/CategoryRepository.java:17 | exactly the user's categories of that type, by name ascending |
| CategoryRepository.ByTypeIsSelectionOfByUser | backend/src/main/java/com/expensetracker/repository/CategoryRepository.java:17 | the by-type answer is the per-user answer with the other type struck out, same order |
| CategoryRepository.FindByUserIdAndNameAndType | backend/src/main/java/com/expensetracker/repository/CategoryRepository.java:19 | empty exactly when exists says false; a found category matches; more than one match is an error |
| CategoryRepository.ExistsByUserIdAndNameAndType | backend/src/main/java/com/expensetracker/repository/CategoryRepository.java:21 | true iff some stored row, at some position, has that user, name and type |
| CategoryRepository.ExistsIsByTypeQuery | backend/src/main/java/com/expensetracker/repository/CategoryRepository.java:21 | the existence check is true iff the name is among the user's categories of that type, as the by-type query returns them |
| CategoryRepository.AtMostOneNamed | backend/src/main/java/com/expensetracker/repository/CategoryRepository.java:19 | under the uniqueness invariant at most one category matches |
| CategoryRepository.FindAgreesWithExists | backend/src/main/java/com/expensetracker/repository/CategoryRepository.java:19-21 | under the invariant the lookup never fails and finds a row iff exists is true |
| CategoryRepository.SameNameOtherTypeAllowed | backend/src/main/java/com/expensetracker/service/CategoryService.java:41-43 | appending a name the user has under the other type keeps the invariant, and the table then holds the name under both types |
| CategoryService.GetCategoryById | backend/src/main/java/com/expensetracker/service/CategoryService.java:28-37 | "Category not found" iff no row has the id; "Unauthorized access to category" iff it is another user's; else the stored row |
| CategoryService.AddKeepsUnique | backend/src/main/java/com/expensetracker/service/CategoryService.java:40-51 | appending a fresh, not yet existing (user, name, type) keeps both invariants |
| CategoryService.RenameKeepsUnique | backend/src/main/java/com/expensetracker/service/CategoryService.java:57-67 | renaming keeps both invariants when the name and type are unchanged or not yet taken |
| CategoryService.RemoveKeepsUnique | backend/src/main/java/com/expensetracker/service/CategoryService.java:71-74 | deleting keeps both invariants |
| CategoryService.CategoryService.CreateCategory | backend/src/main/java/com/expensetracker/service/CategoryService.java:40-51 | "Category already exists" with the table unchanged, or the new row appended; the invariant is kept |
| CategoryService.CategoryService.UpdateCategory | backend/src/main/java/com/expensetracker/service/CategoryService.java:54-68 | lookup errors pass through; the duplicate check only when name or type changes; only name and type change |
| CategoryService.CategoryService.DeleteCategory | backend/src/main/java/com/expensetracker/service/CategoryService.java:71-74 | removes exactly the owner's row; on not found or unauthorized nothing changes |
| TransactionService.GetTransactionById | backend/src/main/java/com/expensetracker/service/TransactionService.java:38-47 | "Transaction not found" iff no row has the id; "Unauthorized access to transaction" iff another user owns it; else the stored row |
| TransactionService.UniqueIdLookup | backend/src/main/java/com/expensetracker/service/TransactionService.java:39-40 | with distinct ids, looking up a stored row's id finds that row |
| Seqs.ReplaceById | backend/src/main/java/com/expensetracker/service/TransactionService.java:72 | save() of an existing row (transactions here, categories at CategoryService.java:67): the row with the saved id is replaced, every other row kept in place |
| Seqs.RemoveById | backend/src/main/java/com/expensetracker/service/TransactionService.java:78 | delete() (transactions here, categories at CategoryService.java:73): exactly the rows with another id remain |
| TransactionService.RemoveKeepsUnique | backend/src/main/java/com/expensetracker/service/TransactionService.java:76-79 | deleting keeps the ids distinct |
| TransactionService.Overwrite | backend/src/main/java/com/expensetracker/service/TransactionService.java:66-70 | id and userId kept; categoryId, amount, type, description and date (even null) from the request |
| TransactionService.IncomePlusExpense | backend/src/main/java/com/expensetracker/service/TransactionService.java:95-100 | the two running totals add up to the sum of all amounts |
| TransactionService.IncomeTotalIsIncomeRows | backend/src/main/java/com/expensetracker/service/TransactionService.java:96-97 | the income total is the sum of the INCOME rows |
| TransactionService.ExpenseTotalIsExpenseRows | backend/src/main/java/com/expensetracker/service/TransactionService.java:98-99 | the expense total is the sum of every other row |
| TransactionService.CategoryName | backend/src/main/java/com/expensetracker/service/TransactionService.java:102-106 | a name iff the row has a category id that resolves to a stored category, and it is that category's name |
| TransactionService.GroupTotalsKeys | backend/src/main/java/com/expensetracker/service/TransactionService.java:102-111 | a key is in the running map iff some row maps to it |
| TransactionService.GroupTotals | backend/src/main/java/com/expensetracker/service/TransactionService.java:102-111 | the running map of getOrDefault + add: every key is the key of some row (the converse and the values are GroupTotalsKeys and GroupTotalsValue) |
| TransactionService.GroupTotalsValue | backend/src/main/java/com/expensetracker/service/TransactionService.java:107-109 | each key's value is the sum of the amounts of the rows filed under it, income and expense alike |
| TransactionService.BreakdownKeys | backend/src/main/java/com/expensetracker/service/TransactionService.java:102-111 | the breakdown holds exactly the resolved category names |
| TransactionService.Breakdown | backend/src/main/java/com/expensetracker/service/TransactionService.java:102-111 | each name holds the sum of the amounts, income and expense alike, of the rows resolving to it |
| TransactionService.BreakdownAppend | backend/src/main/java/com/expensetracker/service/TransactionService.java:102-111 | one more row adds its amount under its resolved name, starting from zero, and changes nothing when it has no resolvable category |
| TransactionService.SummaryRows | backend/src/main/java/com/expensetracker/service/TransactionService.java:84-89 | the user's rows, restricted to the range only when both dates are given, date descending |
| TransactionService.SummaryOf | backend/src/main/java/com/expensetracker/service/TransactionService.java:91-121 | income = INCOME rows' sum, expense = other rows' sum, their total = all amounts, balance = difference, count = rows, breakdown per resolved name |
| TransactionService.Summarise | backend/src/main/java/com/expensetracker/service/TransactionService.java:91-112 | the accumulation loop computes exactly SummaryOf |
| TransactionService.TransactionService.CreateTransaction | backend/src/main/java/com/expensetracker/service/TransactionService.java:50-60 | appends a row owned by the caller with the request's fields, the date defaulting to today; ids stay distinct |
| TransactionService.TransactionService.UpdateTransaction | backend/src/main/java/com/expensetracker/service/TransactionService.java:63-73 | lookup errors leave the table unchanged; else the row is overwritten in place |
| TransactionService.TransactionService.DeleteTransaction | backend/src/main/java/com/expensetracker/service/TransactionService.java:76-79 | removes exactly the owner's row; on failure nothing changes |
| TransactionService.TransactionService.GetTransactionSummary | backend/src/main/java/com/expensetracker/service/TransactionService.java:81-124 | the summary of SummaryRows, with names from the category table |
| TemplateService.TemplatePath | backend/src/main/java/com/expensetracker/service/TemplateService.java:26 | "/templates/" + name + ".mustache", from which the name can be read back |
| TemplateService.TemplatePathInjective | backend/src/main/java/com/expensetracker/service/TemplateService.java:26 | distinct names never share a resource |
| TemplateService.RenderTemplate | backend/src/main/java/com/expensetracker/service/TemplateService.java:23-32 | the engine's text, or its error prefixed with "Error rendering template: " |
| TemplateService.RenderErrorIsPrefixed | backend/src/main/java/com/expensetracker/service/TemplateService.java:29-30 | rendering fails iff the engine fails, and then the message starts with the prefix |
| TemplateService.WelcomeCall | backend/src/main/java/com/expensetracker/service/TemplateService.java:34-38 | the welcome template with userName only |
| TemplateService.TransactionSuccessCall | backend/src/main/java/com/expensetracker/service/TemplateService.java:40-46 | the success template with exactly type, amount and (possibly null) description |
| TemplateService.TransactionUpdateCall | backend/src/main/java/com/expensetracker/service/TemplateService.java:48-53 | the update template with exactly type and amount |
| TemplateService.TransactionDeleteCall | backend/src/main/java/com/expensetracker/service/TemplateService.java:55-57 | the delete template with an empty context |
| TemplateService.ExpenseThresholdCall | backend/src/main/java/com/expensetracker/service/TemplateService.java:59-71 | good advice iff amount < 10000.00, high advice iff ≥; isExpense iff the type text is exactly "EXPENSE" |
| TemplateService.ThresholdIgnoresType | backend/src/main/java/com/expensetracker/service/TemplateService.java:59-70 | the template does not depend on the type; an INCOME of 10000.00 gets the high advice |
| TemplateService.CategoryRows | backend/src/main/java/com/expensetracker/service/TemplateService.java:86-94 | one row per enumerated name, with exactly its name and its amount text |
| TemplateService.CategoryRowsOnePerEntry | backend/src/main/java/com/expensetracker/service/TemplateService.java:86-94 | each breakdown entry appears in exactly one row, with its amount |
| TemplateService.ReportFigures | backend/src/main/java/com/expensetracker/service/TemplateService.java:77-84 | userName, year and transactionCount as given, the month's upper-case name, and totalIncome, totalExpense and balance as their BigDecimal text; exactly these seven keys |
| TemplateService.ReportContext | backend/src/main/java/com/expensetracker/service/TemplateService.java:77-94 | ReportFigures plus the categories list, and no other key |
| TemplateService.MonthlyReportCall | backend/src/main/java/com/expensetracker/service/TemplateService.java:73-103 | the positive tip iff balance > 0, the review tip iff < 0, no tips key iff = 0; the rest is ReportContext |
| Http.ExtractBearerToken | backend/src/main/java/com/expensetracker/controller/TransactionController.java:38-41 | refused iff the header is missing or lacks "Bearer "; else the header is the prefix followed by the token |
| Http.UserIdFromHeader | backend/src/main/java/com/expensetracker/controller/CategoryController.java:25-31 | "Invalid authorization header" for a bad header, else the user the token names |
| TransactionController.ListTransactions | backend/src/main/java/com/expensetracker/controller/TransactionController.java:56-61 | the filter query iff any of type, categoryId, startDate, endDate is given, else the per-user query |
| TransactionController.ListTransactionsIsFilterQuery | backend/src/main/java/com/expensetracker/controller/TransactionController.java:56-61 | the dispatch always answers what the filter query answers |
| TransactionController.GetAllTransactions | backend/src/main/java/com/expensetracker/controller/TransactionController.java:45-68 | 200 with the list iff the header identifies the caller, else 500 with the prefixed message |
| TransactionController.GetTransactionById | backend/src/main/java/com/expensetracker/controller/TransactionController.java:70-82 | 200 "Transaction retrieved successfully" with the caller's row iff the header, the lookup and the ownership pass; otherwise 404 "Transaction not found: " + the reason ("Invalid authorization header", "Transaction not found" or "Unauthorized access to transaction") |
| TransactionController.GetTransactionSummary | backend/src/main/java/com/expensetracker/controller/TransactionController.java:162-175 | 200 with the summary of the caller's rows, or 500 with the prefixed message |
| TransactionController.SavedResponse | backend/src/main/java/com/expensetracker/controller/TransactionController.java:92-108 | success iff both renderings succeed; data has exactly the keys id and adviceMessage; otherwise 400 |
| TransactionController.TransactionController.CreateTransaction | backend/src/main/java/com/expensetracker/controller/TransactionController.java:84-113 | a bad header is 400 with nothing stored; else one row is appended, with the new id, the caller, every request field and the date defaulting to today, and the answer is 201 or 400 |
| TransactionController.TransactionController.UpdateTransaction | backend/src/main/java/com/expensetracker/controller/TransactionController.java:115-143 | lookup errors are 400 with nothing changed; else the row is overwritten and the answer is 200 or 400 |
| TransactionController.TransactionController.DeleteTransaction | backend/src/main/java/com/expensetracker/controller/TransactionController.java:145-160 | a bad header or a failed lookup is 400 with nothing changed; else the owner's row is removed and the answer is DeletedResponse |
| TransactionController.DeletedResponse | backend/src/main/java/com/expensetracker/controller/TransactionController.java:153-159 | 200 with no data iff the delete template renders, its message being that text; else 400 with "Error deleting transaction: Error rendering template: …" |
| TransactionController.PdfRows | backend/src/main/java/com/expensetracker/controller/TransactionController.java:189-194 | the filter query on the dates alone, whichever dates are given |
| TransactionController.OneDateFiltersReportNotSummary | backend/src/main/java/com/expensetracker/controller/TransactionController.java:189-194 | with one date the report is filtered by it while the summary is not |
| TransactionController.ReportFilename | backend/src/main/java/com/expensetracker/controller/TransactionController.java:200-201 | "expense-tracker-report-" + a yyyy-MM-dd text that reads back as today + ".pdf" |
| TransactionController.TransactionController.DownloadPdfReport | backend/src/main/java/com/expensetracker/controller/TransactionController.java:177-213 | 200 iff the caller is identified, the email lookup does not throw and every row of PdfRows has a date; the body is then the encoded report of PdfRows, and Content-Length its byte count; else 500, no body |
| CategoryController.ListCategories | backend/src/main/java/com/expensetracker/controller/CategoryController.java:41-45 | the by-type lookup iff a type is given; exactly the matching categories, by name |
| CategoryController.GetAllCategories | backend/src/main/java/com/expensetracker/controller/CategoryController.java:33-52 | 200 with the list iff the header identifies the caller, else 500 |
| CategoryController.GetCategoryById | backend/src/main/java/com/expensetracker/controller/CategoryController.java:54-66 | 200 "Category retrieved successfully" with the caller's category iff the header, the lookup and the ownership pass; otherwise 404 "Category not found: " + the reason ("Invalid authorization header", "Category not found" or "Unauthorized access to category") |
| CategoryController.CategoryController.CreateCategory | backend/src/main/java/com/expensetracker/controller/CategoryController.java:68-81 | 201 with the new category, or 400 "Error creating category: …" with the table unchanged |
| CategoryController.CategoryController.UpdateCategory | backend/src/main/java/com/expensetracker/controller/CategoryController.java:83-96 | 200 with the renamed category, or 400 with the prefixed reason and the table unchanged |
| CategoryController.CategoryController.DeleteCategory | backend/src/main/java/com/expensetracker/controller/CategoryController.java:98-110 | 200 with no data after removing the owner's category, or 400 with the table unchanged |
| PdfService.PdfTotalsMatchSummary | backend/src/main/java/com/expensetracker/service/PdfService.java:40-50 | the report's stream totals and balance equal the summary's |
| PdfService.BalanceColour | backend/src/main/java/com/expensetracker/service/PdfService.java:104-106 | the non-negative colour iff balance ≥ 0, the expense colour iff < 0 |
| PdfService.PeriodLabel | backend/src/main/java/com/expensetracker/service/PdfService.java:61-64 | "start - end" in "MMM dd, yyyy" iff both dates are given, else "All Time" |
| PdfService.PeriodLabelNeedsBothDates | backend/src/main/java/com/expensetracker/service/PdfService.java:62-64 | one date alone is labelled "All Time", like none |
| PdfService.CategoryKey | backend/src/main/java/com/expensetracker/service/PdfService.java:118-120 | a key iff the row has a category id: "Category " + the id's first eight characters |
| PdfService.CategoryKeyMerges | backend/src/main/java/com/expensetracker/service/PdfService.java:117-123 | ids sharing their first eight characters are summed together |
| PdfService.BreakdownSection | backend/src/main/java/com/expensetracker/service/PdfService.java:116-125 | omitted iff no row has a category; each key comes from a row and holds the sum of its rows, and every categorised row's key is present |
| PdfService.AmountCell | backend/src/main/java/com/expensetracker/service/PdfService.java:196-197 | "+" for INCOME, "-" otherwise, then "₹", then the amount's text |
| PdfService.AmountCellRoundTrip | backend/src/main/java/com/expensetracker/service/PdfService.java:196-197 | the amount and the type's sign read back from the cell |
| PdfService.RowOf | backend/src/main/java/com/expensetracker/service/PdfService.java:182-197 | date text, type, type colour, description or "-", amount cell |
| PdfService.BuildRows | backend/src/main/java/com/expensetracker/service/PdfService.java:181-200 | one row per transaction, in order; a missing date fails with "Error generating PDF: …" |
| PdfService.DetailsOf | backend/src/main/java/com/expensetracker/service/PdfService.java:159-200 | the fixed sentence iff the list is empty, else one row per transaction, in order |
| PdfService.GenerateTransactionReport | backend/src/main/java/com/expensetracker/service/PdfService.java:31-223 | succeeds iff every row has a date, and is then ReportFor: the period, user, totals, balance colour, breakdown, details (the fixed sentence iff empty, else one row per transaction) and footer; an undated row gives "Error generating PDF: …" |
| ApiClient.BaseUrl | frontend/src/services/api.js:4 | the configured URL when set and non-empty, else http://localhost:8080 |
| ApiClient.SessionToken | frontend/src/services/api.js:14-16 | the session's access token iff a session exists and its token is non-empty |
| ApiClient.BearerRoundTrip | frontend/src/services/api.js:17 | the server accepts a header with token t iff it is the client's "Bearer " + t |
| ApiClient.InterceptedRequestIdentifies | frontend/src/services/api.js:13-21 | an intercepted request is attributed by the controllers to the user its session token names |
| ApiClient.RequestConfig.Intercept | frontend/src/services/api.js:13-21 | Authorization set to "Bearer " + token iff the session has one, headers otherwise unchanged |
| ApiClient.RouteOf | frontend/src/services/api.js:23-38 | id-taking helpers append "/" + id to their base path |
| ApiClient.RoutesDistinct | frontend/src/services/api.js:23-38 | with UUID ids, no two helper calls share a method and path |
| ApiClient.SummaryRouteShadowsId | frontend/src/services/api.js:25-29 | getById("summary") would collide with getSummary |
| OtpLogin.SendFailure | frontend/src/components/Auth/OtpLogin.jsx:45-51 | throttled if "429" or "rate limit", else invalid email if "email", else the raw message |
| OtpLogin.VerifyFailure | frontend/src/components/Auth/OtpLogin.jsx:72-80 | throttled, else expired, else invalid code, else the raw message, first match wins |
| OtpLogin.ResendFailure | frontend/src/components/Auth/OtpLogin.jsx:99-103 | throttled iff "429" or "rate limit" |
| OtpLogin.SendErrorText | frontend/src/components/Auth/OtpLogin.jsx:45-51 | the throttling text, the invalid-email text, or "❌ " + the message, by SendFailure |
| OtpLogin.VerifyErrorText | frontend/src/components/Auth/OtpLogin.jsx:72-80 | the throttling, expired or invalid-code text, or "❌ " + the message, by VerifyFailure |
| OtpLogin.ResendErrorText | frontend/src/components/Auth/OtpLogin.jsx:99-103 | the rate-limit text iff the message is rate-limited, else "❌ " + the message |
| OtpLogin.FailureIgnoresCase | frontend/src/components/Auth/OtpLogin.jsx:45-51 | messages differing only in letter case are classified alike |
| OtpLogin.SanitiseCode | frontend/src/components/Auth/OtpLogin.jsx:209 | digits only, at most eight, the leading digits of the input; eight iff at least eight digits were typed |
| OtpLogin.OtpLogin.SetOtp | frontend/src/components/Auth/OtpLogin.jsx:209 | verify becomes enabled iff not loading and the input had at least eight digits |
| OtpLogin.OtpLogin.SetEmail | frontend/src/components/Auth/OtpLogin.jsx:152 | the email field takes the typed text; nothing else changes |
| OtpLogin.OtpLogin.Tick | frontend/src/components/Auth/OtpLogin.jsx:22-29 | the cooldown drops by one while positive, never below zero |
| OtpLogin.OtpLogin.SendOtp | frontend/src/components/Auth/OtpLogin.jsx:31-55 | only while send is enabled (not loading); success: otpSent, message, cooldown 60, resend disabled; failure: otpSent kept, classified error; loading false |
| OtpLogin.OtpLogin.VerifyOtp | frontend/src/components/Auth/OtpLogin.jsx:57-84 | only while verify is enabled (not loading, eight digits); success schedules /dashboard; failure keeps the code and sets the classified error |
| OtpLogin.OtpLogin.ResendOtp | frontend/src/components/Auth/OtpLogin.jsx:86-107 | only while resend is enabled (not loading, cooldown 0), so no code is requested during the cooldown; the code cleared; success restarts the cooldown and disables resend, failure sets the classified error |
| OtpLogin.OtpLogin.ChangeEmail | frontend/src/components/Auth/OtpLogin.jsx:256-262 | otpSent false, code, error and message empty, cooldown 0 |
| Settings.PasswordProblem | frontend/src/pages/Settings.jsx:31-41 | no problem iff the passwords match and are at least six UTF-16 code units long (JavaScript's length); mismatch checked first |
| Text.Utf16Length | frontend/src/pages/Settings.jsx:37 | JavaScript's length: between the character count and twice it, equal to the count iff no character lies above U+FFFF, twice it iff all do |
| Settings.AstralPasswordLength | frontend/src/pages/Settings.jsx:37 | three characters above U+FFFF are six code units, so such a password passes the length check |
| Settings.Settings.ResetPassword | frontend/src/pages/Settings.jsx:25-58 | only while the button is enabled (not loading); the provider is asked iff the checks pass; success clears both fields, failure keeps them; loading false |
| Login.Login.Submit | frontend/src/components/Auth/Login.jsx:21-44 | only while the button is enabled (not loading); exactly one provider call chosen by the mode; mode-specific success, error or fallback; loading false |
| Login.Login.ToggleMode | frontend/src/components/Auth/Login.jsx:152-156 | the mode flips and error and message are cleared |
| TransactionsPage.ToastKind | frontend/src/pages/Transactions.jsx:48-49 | 'warning' iff the amount is at least 10000.00, else 'success' |
| TransactionsPage.ToastAgreesWithAdvice | frontend/src/pages/Transactions.jsx:48-49 | the toast warns exactly when the server chose the high advice template |
| TransactionsPage.TransactionsPage.ShowAdvice | frontend/src/pages/Transactions.jsx:47-51 | with a non-empty adviceMessage the toast shows it with ToastKind of the amount; otherwise the toast is untouched; nothing else changes |
| TransactionsPage.TransactionsPage.FetchTransactions | frontend/src/pages/Transactions.jsx:29-39 | the answer's list or [], or the load error with the list kept; loading false |
| TransactionsPage.TransactionsPage.CreateTransaction | frontend/src/pages/Transactions.jsx:41-60 | success: server message, advice toast only if advice is present, form hidden, refresh; failure: fixed message |
| TransactionsPage.TransactionsPage.UpdateTransaction | frontend/src/pages/Transactions.jsx:62-81 | success: server message, advice toast, editing cleared, refresh; failure: fixed message |
| TransactionsPage.TransactionsPage.DeleteTransaction | frontend/src/pages/Transactions.jsx:83-97 | no call and no change unless confirmed; then the server's message or the fixed error |

## Left out

- Mustache compilation and rendering are left out. The engine is a parameter,
  and the model fixes only the template name and the context.
- The welcome message and the monthly report have no caller among the modelled
  files. They are modelled as the template call alone.
- HMAC verification of the JWT is left out, and so is `JwtConfig`'s fallback to
  an unverified decode when verification fails. Reading a user id or an email
  from a token is a parameter.
- The iText document (fonts, tables, styling and the PDF bytes) is left out. A
  `Report` value holds what the document shows, and the encoder is a parameter.
- The iteration order of `HashMap` is a parameter: `order` in
  `TemplateService.CategoryRows`. The PDF's breakdown is kept as a map, so its
  row order is not modelled.
- `BigDecimal.toString` is modelled for scale 2 only. Amounts of other scales,
  and the scale of sums, are not modelled.
- `parseFloat` and IEEE arithmetic on the form's amount are left out. The page
  receives the amount as exact hundredths.
- JavaScript's `toLowerCase` is modelled for ASCII letters only. No Unicode
  case mapping is modelled.
- `Calendar.MonthAbbreviation` is fixed to the English locale, and years are
  limited to 1..9999.
- The NullPointerException raised for a transaction without a date in the PDF
  rows is a parameter message.
- The amount and the type of a transaction, and of a request, are assumed
  present. Nothing in TransactionRequest.java:16-20 forbids a null type or
  amount. Such a row would be counted as an expense by the summary, and it
  would make the advice rendering and the PDF report throw a
  NullPointerException. None of this is modelled.
- A missing Authorization header is rejected by Spring with its own 400
  before any handler runs, because every handler's `@RequestHeader` is
  required. The `None` header in `Http.ExtractBearerToken`, and the 500, 404
  and 400 answers it leads to, model only the handlers' own null check.
- Tie order among rows with equal sort keys follows table order, which SQL does
  not promise.
- The ordering of null dates is fixed as first under DESC, which is the
  PostgreSQL default.
- Database constraints beyond the primary key are left out. JPA persistence and
  `@Transactional` are also left out.
- Query parameters sent by `getAll` and `getSummary` are left out of the
  routes. `RouteOf` models only the method and path.
- Timers are left out:
  - the 500 ms navigation delay is modelled as a scheduled route;
  - the one-second cooldown is a `Tick` event;
  - the three-second message clear and the toast's auto-dismiss are not
    modelled.
- Concurrency is left out: awaits interleaving with other events, and the list
  refresh a handler starts (reported as `refresh`, not performed).
- Supabase calls are not modelled beyond their outcomes: `AuthContext`,
  `updateUser` and `getSession` are parameters.
- The Dashboard, Categories and TransactionForm screens, routing and all markup
  are left out.
- The PDF download button and the Blob download on the Transactions page are
  left out, because they are browser I/O.
- TransactionService.Summarise: the loop of `getTransactionSummary` lives in
  this module-level method so that its proof stays separate from the table's
  frame. The class method calls it on the rows it selected.

=== FILE: api_client.dfy ===
/** The front end's HTTP client: the base URL, the request interceptor that
    adds the bearer header, and the fixed route of every helper. */
module ApiClient {
  import opened Wrappers
  import opened Text
  import opened Domain
  import Http

  const DefaultBaseUrl := "http://localhost:8080"
  const Authorization := "Authorization"
  const TransactionsPath := "/api/transactions"
  const SummaryPath := "/api/transactions/summary"
  const CategoriesPath := "/api/categories"

  /** VITE_API_BASE_URL when set and not empty, else the local server. */
  function BaseUrl(configured: Option<string>): (r: string)
    ensures configured.Some? && configured.value != "" ==> r == configured.value
    ensures configured.None? || configured.value == "" ==> r == DefaultBaseUrl
  {
    if configured.Some? && configured.value != "" then configured.value else DefaultBaseUrl
  }

  /** What getSession answers: no session, or one whose access token may be
      missing. */
  datatype Session = Session(accessToken: Option<string>)

  /** The token the interceptor sends: present and not empty. */
  function SessionToken(session: Option<Session>): (r: Option<string>)
    ensures r.Some? <==> session.Some? && session.value.accessToken.Some? && session.value.accessToken.value != ""
    ensures r.Some? ==> r.value == session.value.accessToken.value
  {
    if session.Some? && session.value.accessToken.Some? && session.value.accessToken.value != "" then
      session.value.accessToken
    else
      None
  }

  /** `Bearer ${token}` */
  function BearerHeader(token: string): string {
    Http.BearerPrefix + token
  }

  /** The header the client builds is exactly what the server accepts and
      strips: a header passes the server's check with token t iff it is the
      client's header for t. */
  lemma BearerRoundTrip(header: string, token: string)
    ensures Http.ExtractBearerToken(Some(header)) == Ok(token) <==> header == BearerHeader(token)
  {
    if header == BearerHeader(token) {
      assert header[..|Http.BearerPrefix|] == Http.BearerPrefix;
      assert header[|Http.BearerPrefix|..] == token;
    }
  }

  /** A request that went through the interceptor with a session token is
      attributed by either controller to the user that token names. */
  lemma InterceptedRequestIdentifies(identify: Http.Identify, session: Option<Session>)
    requires SessionToken(session).Some?
    ensures Http.UserIdFromHeader(identify, Some(BearerHeader(SessionToken(session).value)))
         == identify(SessionToken(session).value)
  {
    BearerRoundTrip(BearerHeader(SessionToken(session).value), SessionToken(session).value);
  }

  /** The headers of one outgoing request, which the interceptor changes in
      place. */
  class RequestConfig {
    var headers: map<string, string>

    constructor (headers: map<string, string>)
      ensures this.headers == headers
    {
      this.headers := headers;
    }

    /** The request interceptor. The session is read anew for every request,
        so the header carries the token of the session at that moment. */
    method Intercept(session: Option<Session>)
      modifies this
      ensures SessionToken(session).Some? ==>
        headers == old(headers)[Authorization := BearerHeader(SessionToken(session).value)]
      ensures SessionToken(session).None? ==> headers == old(headers)
    {
      if session.Some? && session.value.accessToken.Some? && session.value.accessToken.value != "" {
        headers := headers[Authorization := BearerHeader(session.value.accessToken.value)];
      }
    }
  }

  datatype Verb = GET | POST | PUT | DELETE

  datatype Route = Route(verb: Verb, path: string)

  /** The helpers of transactionAPI and categoryAPI. Query parameters are not
      part of the route. */
  datatype Endpoint =
    | ListTransactions
    | GetTransaction(id: string)
    | CreateTransaction
    | UpdateTransaction(id: string)
    | DeleteTransaction(id: string)
    | GetSummary
    | ListCategories
    | GetCategory(id: string)
    | CreateCategory
    | UpdateCategory(id: string)
    | DeleteCategory(id: string)

  predicate HasId(e: Endpoint) {
    e.GetTransaction? || e.UpdateTransaction? || e.DeleteTransaction?
    || e.GetCategory? || e.UpdateCategory? || e.DeleteCategory?
  }

  function RouteOf(e: Endpoint): (r: Route)
    ensures e.GetTransaction? || e.UpdateTransaction? || e.DeleteTransaction? ==>
      r.path == TransactionsPath + "/" + e.id
    ensures e.GetCategory? || e.UpdateCategory? || e.DeleteCategory? ==>
      r.path == CategoriesPath + "/" + e.id
  {
    match e
    case ListTransactions => Route(GET, TransactionsPath)
    case GetTransaction(id) => Route(GET, TransactionsPath + "/" + id)
    case CreateTransaction => Route(POST, TransactionsPath)
    case UpdateTransaction(id) => Route(PUT, TransactionsPath + "/" + id)
    case DeleteTransaction(id) => Route(DELETE, TransactionsPath + "/" + id)
    case GetSummary => Route(GET, SummaryPath)
    case ListCategories => Route(GET, CategoriesPath)
    case GetCategory(id) => Route(GET, CategoriesPath + "/" + id)
    case CreateCategory => Route(POST, CategoriesPath)
    case UpdateCategory(id) => Route(PUT, CategoriesPath + "/" + id)
    case DeleteCategory(id) => Route(DELETE, CategoriesPath + "/" + id)
  }

  /** The helper's ids are UUIDs, 36 characters long. */
  predicate IdIsUuid(e: Endpoint) {
    HasId(e) ==> |e.id| == 36
  }

  /** With UUID ids no two helper calls share a route: the route tells the
      server which helper was called and with which id. */
  lemma RoutesDistinct(a: Endpoint, b: Endpoint)
    requires IdIsUuid(a) && IdIsUuid(b)
    requires RouteOf(a) == RouteOf(b)
    ensures a == b
  {
    var p := RouteOf(a).path;
    if HasId(a) && HasId(b) {
      if a.GetTransaction? || a.UpdateTransaction? || a.DeleteTransaction? {
        assert a.id == p[|TransactionsPath| + 1..];
      } else {
        assert a.id == p[|CategoriesPath| + 1..];
      }
      if b.GetTransaction? || b.UpdateTransaction? || b.DeleteTransaction? {
        assert b.id == p[|TransactionsPath| + 1..];
        assert p[..|TransactionsPath|] == TransactionsPath;
      } else {
        assert b.id == p[|CategoriesPath| + 1..];
        assert p[..|CategoriesPath|] == CategoriesPath;
      }
    }
  }

  /** Without that, the id "summary" would make getById's route the summary's. */
  lemma SummaryRouteShadowsId()
    ensures RouteOf(GetTransaction("summary")) == RouteOf(GetSummary)
  {
  }
}

=== FILE: calendar.dfy ===
/** java.time.LocalDate: a calendar date, its natural order, and the two
    DateTimeFormatter patterns the reports use ("yyyy-MM-dd", "MMM dd, yyyy"). */
module Calendar {
  import opened Wrappers
  import opened Text

  datatype Ymd = Ymd(year: int, month: int, day: int)

  predicate IsLeapYear(y: int) {
    y % 4 == 0 && (y % 100 != 0 || y % 400 == 0)
  }

  function DaysInMonth(y: int, m: int): (n: int)
    requires 1 <= m <= 12
    ensures 28 <= n <= 31
  {
    if m == 2 then (if IsLeapYear(y) then 29 else 28)
    else if m == 4 || m == 6 || m == 9 || m == 11 then 30
    else 31
  }

  predicate ValidYmd(d: Ymd) {
    1 <= d.year <= 9999 && 1 <= d.month <= 12 && 1 <= d.day <= DaysInMonth(d.year, d.month)
  }

  /** A LocalDate of the years that "yyyy" prints as four digits. */
  type Date = d: Ymd | ValidYmd(d) witness Ymd(2000, 1, 1)

  /** LocalDate.compareTo(a, b) <= 0: year, then month, then day. */
  predicate DateLeq(a: Date, b: Date) {
    a.year < b.year
    || (a.year == b.year && (a.month < b.month || (a.month == b.month && a.day <= b.day)))
  }

  lemma DateLeqAntisymmetric(a: Date, b: Date)
    requires DateLeq(a, b) && DateLeq(b, a)
    ensures a == b
  {
  }

  /** The "yyyy-MM-dd" pattern, e.g. 2024-03-07. */
  function IsoText(d: Date): (r: string)
    ensures |r| == 10 && r[4] == '-' && r[7] == '-'
  {
    Pad4(d.year) + "-" + Pad2(d.month) + "-" + Pad2(d.day)
  }

  /** Reads the "yyyy-MM-dd" pattern back; None for anything that is not a date. */
  function ParseIsoText(s: string): Option<Date> {
    if |s| != 10 || s[4] != '-' || s[7] != '-' then None
    else if !AllDigits(s[..4]) || !AllDigits(s[5..7]) || !AllDigits(s[8..]) then None
    else
      var d := Ymd(ParseDigits(s[..4]), ParseDigits(s[5..7]), ParseDigits(s[8..]));
      if ValidYmd(d) then Some(d) else None
  }

  /** Every date printed with "yyyy-MM-dd" reads back as itself, so the printed
      form is unambiguous. */
  lemma {:induction false} ParseIsoTextRoundTrip(d: Date)
    ensures ParseIsoText(IsoText(d)) == Some(d)
  {
    var y, m, dd := Pad4(d.year), Pad2(d.month), Pad2(d.day);
    var s := IsoText(d);
    assert s == y + "-" + m + "-" + dd;
    assert s[..4] == y;
    assert s[5..7] == m;
    assert s[8..] == dd;
    ParsePad4(d.year);
    ParsePad2(d.month);
    ParsePad2(d.day);
  }

  lemma IsoTextInjective(a: Date, b: Date)
    requires IsoText(a) == IsoText(b)
    ensures a == b
  {
    ParseIsoTextRoundTrip(a);
    ParseIsoTextRoundTrip(b);
  }

  /** The "MMM" field in an English locale. */
  function MonthAbbreviation(m: int): (r: string)
    requires 1 <= m <= 12
    ensures |r| == 3
  {
    ["Jan", "Feb", "Mar", "Apr", "May", "Jun", "Jul", "Aug", "Sep", "Oct", "Nov", "Dec"][m - 1]
  }

  /** The "MMM dd, yyyy" pattern, e.g. "Mar 07, 2024". */
  function MediumText(d: Date): (r: string)
    ensures |r| == 12
  {
    MonthAbbreviation(d.month) + " " + Pad2(d.day) + ", " + Pad4(d.year)
  }

  /** The name java.time.Month.toString() gives, e.g. "MARCH". */
  function MonthName(m: int): (r: string)
    requires 1 <= m <= 12
    ensures 3 <= |r| <= 9
    ensures forall i :: 0 <= i < |r| ==> 'A' <= r[i] <= 'Z'
  {
    ["JANUARY", "FEBRUARY", "MARCH", "APRIL", "MAY", "JUNE", "JULY", "AUGUST",
     "SEPTEMBER", "OCTOBER", "NOVEMBER", "DECEMBER"][m - 1]
  }
}

=== FILE: category_controller.dfy ===
/** CategoryController: /api/categories. Reads are functions of the table;
    the handlers that write go through the service object. */
module CategoryController {
  import opened Wrappers
  import opened Text
  import opened Domain
  import opened Http
  import CategoryRepository
  import CategoryService
  import Seqs

  const ListError := "Error retrieving categories: "
  const GetError := "Category not found: "
  const CreateError := "Error creating category: "
  const UpdateError := "Error updating category: "
  const DeleteError := "Error deleting category: "

  /** getAllCategories' choice: by type when a type is given, else every
      category of the caller; both by name. */
  function ListCategories(rows: seq<Category>, userId: Uuid, kind: Option<TransactionType>): (r: seq<Category>)
    ensures forall c :: c in r ==> c in rows && c.userId == userId && (kind.Some? ==> c.kind == kind.value)
    ensures forall c :: c in rows && c.userId == userId && (kind.None? || c.kind == kind.value) ==> c in r
    ensures CategoryRepository.NameAscending(r)
  {
    if kind.Some? then
      CategoryRepository.FindByUserIdAndTypeOrderByNameAsc(rows, userId, kind.value)
    else
      CategoryRepository.FindByUserIdOrderByNameAsc(rows, userId)
  }

  /** GET /api/categories: 200 with the list, or 500. */
  function GetAllCategories(rows: seq<Category>, identify: Identify, header: Option<string>, kind: Option<TransactionType>)
    : (r: Response<seq<Category>>)
    ensures r.status == OK <==> UserIdFromHeader(identify, header).Ok?
    ensures r.status == OK ==> r.body == Success("Categories retrieved successfully",
      Some(ListCategories(rows, UserIdFromHeader(identify, header).value, kind)))
    ensures r.status != OK ==>
      r == Response(INTERNAL_SERVER_ERROR, Error(ListError + UserIdFromHeader(identify, header).error))
  {
    var outcome := Then(UserIdFromHeader(identify, header),
      (userId: Uuid) => Ok(ListCategories(rows, userId, kind)));
    Answer(outcome, OK, "Categories retrieved successfully", INTERNAL_SERVER_ERROR, ListError)
  }

  /** GET /api/categories/{id}: 200 with the caller's category, else 404,
      whether the header, the id or the owner is wrong. */
  function GetCategoryById(rows: seq<Category>, identify: Identify, header: Option<string>, id: Uuid)
    : (r: Response<Category>)
    ensures r.status == OK || r.status == NOT_FOUND
    ensures r.status == OK <==>
      UserIdFromHeader(identify, header).Ok?
      && CategoryService.GetCategoryById(rows, id, UserIdFromHeader(identify, header).value).Ok?
    ensures r.status == OK ==>
      && r.body.Success? && r.body.data.Some?
      && r.body.data.value in rows && r.body.data.value.id == id
      && r.body.data.value.userId == UserIdFromHeader(identify, header).value
    ensures r.status == OK ==> r.body == Success("Category retrieved successfully",
      Some(CategoryService.GetCategoryById(rows, id, UserIdFromHeader(identify, header).value).value))
    ensures r.status == NOT_FOUND ==> r.body.Error? && StartsWith(r.body.message, GetError)
    ensures UserIdFromHeader(identify, header).Err? ==>
      r == Response(NOT_FOUND, Error(GetError + UserIdFromHeader(identify, header).error))
    ensures (UserIdFromHeader(identify, header).Ok?
      && CategoryService.GetCategoryById(rows, id, UserIdFromHeader(identify, header).value).Err?) ==>
      r == Response(NOT_FOUND, Error(GetError
        + CategoryService.GetCategoryById(rows, id, UserIdFromHeader(identify, header).value).error))
  {
    var outcome := Then(UserIdFromHeader(identify, header),
      (userId: Uuid) => CategoryService.GetCategoryById(rows, id, userId));
    var r := Answer(outcome, OK, "Category retrieved successfully", NOT_FOUND, GetError);
    assert r.status == NOT_FOUND ==> r.body.message[..|GetError|] == GetError;
    r
  }

  class CategoryController {
    const service: CategoryService.CategoryService
    const identify: Identify

    constructor (service: CategoryService.CategoryService, identify: Identify)
      ensures this.service == service && this.identify == identify
    {
      this.service := service;
      this.identify := identify;
    }

    /** POST /api/categories: 201 with the new category, or 400. */
    method CreateCategory(header: Option<string>, request: CategoryRequest, newId: Uuid)
      returns (r: Response<Category>)
      requires service.Valid()
      requires forall c :: c in service.rows ==> c.id != newId
      modifies service
      ensures service.Valid()
      ensures UserIdFromHeader(identify, header).Err? ==>
        r == Response(BAD_REQUEST, Error(CreateError + UserIdFromHeader(identify, header).error))
        && service.rows == old(service.rows)
      ensures UserIdFromHeader(identify, header).Ok? ==>
        var userId := UserIdFromHeader(identify, header).value;
        if old(CategoryRepository.ExistsByUserIdAndNameAndType(service.rows, userId, request.name, request.kind))
        then r == Response(BAD_REQUEST, Error(CreateError + "Category already exists"))
             && service.rows == old(service.rows)
        else
          var c := Category(newId, userId, request.name, request.kind);
          && r == Response(CREATED, Success("Category created successfully", Some(c)))
          && service.rows == old(service.rows) + [c]
    {
      var userId := UserIdFromHeader(identify, header);
      if userId.Err? {
        return Response(BAD_REQUEST, Error(CreateError + userId.error));
      }
      var created := service.CreateCategory(request, userId.value, newId);
      r := Answer(created, CREATED, "Category created successfully", BAD_REQUEST, CreateError);
    }

    /** PUT /api/categories/{id}: 200 with the updated category, or 400. */
    method UpdateCategory(header: Option<string>, id: Uuid, request: CategoryRequest)
      returns (r: Response<Category>)
      requires service.Valid()
      modifies service
      ensures service.Valid()
      ensures r.status == OK || r.status == BAD_REQUEST
      ensures UserIdFromHeader(identify, header).Err? ==>
        r == Response(BAD_REQUEST, Error(UpdateError + UserIdFromHeader(identify, header).error))
        && service.rows == old(service.rows)
      ensures UserIdFromHeader(identify, header).Ok? ==>
        var userId := UserIdFromHeader(identify, header).value;
        var found := old(CategoryService.GetCategoryById(service.rows, id, userId));
        && (found.Err? ==> r == Response(BAD_REQUEST, Error(UpdateError + found.error))
                           && service.rows == old(service.rows))
        && (found.Ok? ==>
              var c := found.value;
              var duplicate := (c.name != request.name || c.kind != request.kind)
                && old(CategoryRepository.ExistsByUserIdAndNameAndType(service.rows, userId, request.name, request.kind));
              && (duplicate ==>
                    r == Response(BAD_REQUEST, Error(UpdateError + "Category with this name and type already exists"))
                    && service.rows == old(service.rows))
              && (!duplicate ==>
                    var updated := c.(name := request.name, kind := request.kind);
                    && r == Response(OK, Success("Category updated successfully", Some(updated)))
                    && service.rows == Seqs.ReplaceById(old(service.rows), updated, CategoryIdOf)))
    {
      var userId := UserIdFromHeader(identify, header);
      if userId.Err? {
        return Response(BAD_REQUEST, Error(UpdateError + userId.error));
      }
      var updated := service.UpdateCategory(id, request, userId.value);
      r := Answer(updated, OK, "Category updated successfully", BAD_REQUEST, UpdateError);
    }

    /** DELETE /api/categories/{id}: 200 with no data, or 400. */
    method DeleteCategory(header: Option<string>, id: Uuid) returns (r: Response<()>)
      requires service.Valid()
      modifies service
      ensures service.Valid()
      ensures UserIdFromHeader(identify, header).Err? ==>
        r == Response(BAD_REQUEST, Error(DeleteError + UserIdFromHeader(identify, header).error))
        && service.rows == old(service.rows)
      ensures UserIdFromHeader(identify, header).Ok? ==>
        var found := old(CategoryService.GetCategoryById(service.rows, id, UserIdFromHeader(identify, header).value));
        && (found.Err? ==> r == Response(BAD_REQUEST, Error(DeleteError + found.error))
                           && service.rows == old(service.rows))
        && (found.Ok? ==> r == Response(OK, Success("Category deleted successfully", None))
                          && service.rows == Seqs.RemoveById(old(service.rows), id, CategoryIdOf))
    {
      var userId := UserIdFromHeader(identify, header);
      if userId.Err? {
        return Response(BAD_REQUEST, Error(DeleteError + userId.error));
      }
      var deleted := service.DeleteCategory(id, userId.value);
      if deleted.Err? {
        return Response(BAD_REQUEST, Error(DeleteError + deleted.error));
      }
      r := Response(OK, Success("Category deleted successfully", None));
    }
  }
}

=== FILE: category_repository.dfy ===
/** CategoryRepository: the derived queries over the categories table, given as
    its sequence of rows. */
module CategoryRepository {
  import opened Wrappers
  import opened Text
  import opened Domain
  import opened Seqs

  /** ORDER BY name ASC, by code point. */
  predicate NameOrder(a: Category, b: Category) {
    StrLeq(a.name, b.name)
  }

  lemma NameOrderIsTotalPreorder()
    ensures TotalPreorder(NameOrder)
  {
    forall a: Category, b: Category ensures NameOrder(a, b) || NameOrder(b, a) {
      StrLeqTotal(a.name, b.name);
    }
    forall a: Category, b: Category, c: Category | NameOrder(a, b) && NameOrder(b, c)
      ensures NameOrder(a, c)
    {
      StrLeqTransitive(a.name, b.name, c.name);
    }
  }

  ghost predicate NameAscending(s: seq<Category>) {
    Sorted(s, NameOrder)
  }

  /** findById */
  function FindById(rows: seq<Category>, id: Uuid): (r: Option<Category>)
    ensures r.Some? ==> r.value in rows && r.value.id == id
    ensures r.None? ==> forall c :: c in rows ==> c.id != id
  {
    if rows == [] then None
    else if rows[0].id == id then Some(rows[0])
    else FindById(rows[1..], id)
  }

  /** findByUserIdOrderByNameAsc */
  function FindByUserIdOrderByNameAsc(rows: seq<Category>, userId: Uuid): (r: seq<Category>)
    ensures forall c :: c in r ==> c in rows && c.userId == userId
    ensures forall c :: c in rows && c.userId == userId ==> c in r
    ensures multiset(r) <= multiset(rows)
    ensures NameAscending(r)
  {
    var owned := Filter(rows, (c: Category) => c.userId == userId);
    NameOrderIsTotalPreorder();
    SortSorted(owned, NameOrder);
    Sort(owned, NameOrder)
  }

  /** findByUserIdAndTypeOrderByNameAsc */
  function FindByUserIdAndTypeOrderByNameAsc(rows: seq<Category>, userId: Uuid, kind: TransactionType): (r: seq<Category>)
    ensures forall c :: c in r ==> c in rows && c.userId == userId && c.kind == kind
    ensures forall c :: c in rows && c.userId == userId && c.kind == kind ==> c in r
    ensures multiset(r) <= multiset(rows)
    ensures NameAscending(r)
  {
    var owned := Filter(rows, (c: Category) => c.userId == userId && c.kind == kind);
    NameOrderIsTotalPreorder();
    SortSorted(owned, NameOrder);
    Sort(owned, NameOrder)
  }

  /** The by-type answer is the full per-user answer with the other type's
      categories struck out, in the same order. */
  lemma ByTypeIsSelectionOfByUser(rows: seq<Category>, userId: Uuid, kind: TransactionType)
    ensures FindByUserIdAndTypeOrderByNameAsc(rows, userId, kind)
         == Filter(FindByUserIdOrderByNameAsc(rows, userId), (c: Category) => c.kind == kind)
  {
    var owned := (c: Category) => c.userId == userId;
    var ofKind := (c: Category) => c.kind == kind;
    var both := (c: Category) => c.userId == userId && c.kind == kind;
    NameOrderIsTotalPreorder();
    FilterSort(Filter(rows, owned), NameOrder, ofKind);
    FilterFilter(rows, owned, ofKind, both);
  }

  predicate Named(c: Category, userId: Uuid, name: string, kind: TransactionType) {
    c.userId == userId && c.name == name && c.kind == kind
  }

  /** existsByUserIdAndNameAndType: some stored row has that user, name and type. */
  predicate ExistsByUserIdAndNameAndType(rows: seq<Category>, userId: Uuid, name: string, kind: TransactionType)
    ensures ExistsByUserIdAndNameAndType(rows, userId, name, kind) <==>
      exists i :: 0 <= i < |rows| && Named(rows[i], userId, name, kind)
  {
    exists c :: c in rows && Named(c, userId, name, kind)
  }

  /** The existence check agrees with the by-type query: the name is among the
      user's categories of that type. */
  lemma ExistsIsByTypeQuery(rows: seq<Category>, userId: Uuid, name: string, kind: TransactionType)
    ensures ExistsByUserIdAndNameAndType(rows, userId, name, kind) <==>
      exists c :: c in FindByUserIdAndTypeOrderByNameAsc(rows, userId, kind) && c.name == name
  {
  }

  /** findByUserIdAndNameAndType: an Optional result, so more than one match is
      an error (IncorrectResultSizeDataAccessException). */
  function FindByUserIdAndNameAndType(rows: seq<Category>, userId: Uuid, name: string, kind: TransactionType)
    : (r: Result<Option<Category>>)
    ensures r == Ok(None) <==> !ExistsByUserIdAndNameAndType(rows, userId, name, kind)
    ensures r.Ok? && r.value.Some? ==> r.value.value in rows && Named(r.value.value, userId, name, kind)
  {
    var found := Filter(rows, (c: Category) => Named(c, userId, name, kind));
    if |found| == 0 then
      assert forall c :: c in rows && Named(c, userId, name, kind) ==> c in found;
      Ok(None)
    else if |found| == 1 then
      assert found[0] in found;
      Ok(Some(found[0]))
    else
      assert found[0] in found;
      Err("query did not return a unique result")
  }

  /** The table invariant the service keeps: no user has two categories with
      the same name and the same type. */
  predicate UniqueNames(rows: seq<Category>) {
    forall i, j :: 0 <= i < j < |rows| ==>
      !Named(rows[j], rows[i].userId, rows[i].name, rows[i].kind)
  }

  lemma {:induction false} AtMostOneNamed(rows: seq<Category>, userId: Uuid, name: string, kind: TransactionType)
    requires UniqueNames(rows)
    ensures |Filter(rows, (c: Category) => Named(c, userId, name, kind))| <= 1
  {
    var p := (c: Category) => Named(c, userId, name, kind);
    if rows != [] {
      var tail := rows[1..];
      assert UniqueNames(tail) by {
        forall i, j | 0 <= i < j < |tail|
          ensures !Named(tail[j], tail[i].userId, tail[i].name, tail[i].kind)
        {
          assert tail[i] == rows[i + 1] && tail[j] == rows[j + 1];
        }
      }
      AtMostOneNamed(tail, userId, name, kind);
      if p(rows[0]) {
        forall c | c in tail ensures !p(c) {
          var k :| 0 <= k < |tail| && tail[k] == c;
          assert rows[k + 1] == c;
        }
      }
    }
  }

  /** Under the invariant the single-result lookup never fails, and it finds a
      category exactly when the exists query says there is one. */
  lemma FindAgreesWithExists(rows: seq<Category>, userId: Uuid, name: string, kind: TransactionType)
    requires UniqueNames(rows)
    ensures FindByUserIdAndNameAndType(rows, userId, name, kind).Ok?
    ensures ExistsByUserIdAndNameAndType(rows, userId, name, kind)
        <==> FindByUserIdAndNameAndType(rows, userId, name, kind).value.Some?
  {
    AtMostOneNamed(rows, userId, name, kind);
  }

  /** A name the user already has under the other type may still be added:
      the table keeps the invariant and then holds the name under both types. */
  lemma SameNameOtherTypeAllowed(rows: seq<Category>, taken: Category, c: Category)
    requires UniqueNames(rows)
    requires taken in rows && taken.userId == c.userId && taken.name == c.name && taken.kind != c.kind
    requires !ExistsByUserIdAndNameAndType(rows, c.userId, c.name, c.kind)
    ensures UniqueNames(rows + [c])
    ensures ExistsByUserIdAndNameAndType(rows + [c], c.userId, c.name, taken.kind)
    ensures ExistsByUserIdAndNameAndType(rows + [c], c.userId, c.name, c.kind)
  {
    var r := rows + [c];
    forall i, j | 0 <= i < j < |r| ensures !Named(r[j], r[i].userId, r[i].name, r[i].kind) {
      if j == |rows| {
        assert r[i] in rows;
      }
    }
    assert taken in r && Named(taken, c.userId, c.name, taken.kind);
    assert c in r && Named(c, c.userId, c.name, c.kind);
  }
}

=== FILE: category_service.dfy ===
/** CategoryService: owner-checked lookup, and create, update and delete of a
    user's categories, keeping the (user, name, type) uniqueness invariant. */
module CategoryService {
  import opened Wrappers
  import opened Domain
  import opened Seqs
  import opened CategoryRepository

  /** getCategoryById: the stored category, if it exists and is the caller's. */
  function GetCategoryById(rows: seq<Category>, id: Uuid, userId: Uuid): (r: Result<Category>)
    ensures r == Err("Category not found") <==> (forall c :: c in rows ==> c.id != id)
    ensures r == Err("Unauthorized access to category")
        <==> FindById(rows, id).Some? && FindById(rows, id).value.userId != userId
    ensures r.Ok? <==> FindById(rows, id).Some? && FindById(rows, id).value.userId == userId
    ensures r.Ok? ==> r.value in rows && r.value.id == id && r.value.userId == userId
  {
    match FindById(rows, id)
    case None => Err("Category not found")
    case Some(c) =>
      if c.userId != userId then Err("Unauthorized access to category") else Ok(c)
  }

  /** Adding a category the user does not have yet keeps the invariant. */
  lemma AddKeepsUnique(rows: seq<Category>, c: Category)
    requires UniqueNames(rows) && UniqueCategoryIds(rows)
    requires !ExistsByUserIdAndNameAndType(rows, c.userId, c.name, c.kind)
    requires forall d :: d in rows ==> d.id != c.id
    ensures UniqueNames(rows + [c]) && UniqueCategoryIds(rows + [c])
  {
    var r := rows + [c];
    forall i, j | 0 <= i < j < |r| ensures !Named(r[j], r[i].userId, r[i].name, r[i].kind) && r[i].id != r[j].id {
      if j == |rows| {
        assert r[i] in rows;
      }
    }
  }

  /** Renaming a category to a (name, type) its owner does not use elsewhere
      keeps the invariant; so does renaming it to its own name and type. */
  lemma RenameKeepsUnique(rows: seq<Category>, c: Category, name: string, kind: TransactionType)
    requires UniqueNames(rows) && UniqueCategoryIds(rows)
    requires c in rows
    requires (c.name == name && c.kind == kind) || !ExistsByUserIdAndNameAndType(rows, c.userId, name, kind)
    ensures UniqueNames(ReplaceById(rows, c.(name := name, kind := kind), CategoryIdOf))
    ensures UniqueCategoryIds(ReplaceById(rows, c.(name := name, kind := kind), CategoryIdOf))
  {
    var u := c.(name := name, kind := kind);
    var r := ReplaceById(rows, u, CategoryIdOf);
    var k :| 0 <= k < |rows| && rows[k] == c;
    forall i | 0 <= i < |rows| && i != k ensures rows[i].id != c.id {
      if i < k { assert rows[i].id != rows[k].id; } else { assert rows[k].id != rows[i].id; }
    }
    forall i, j | 0 <= i < j < |r| ensures !Named(r[j], r[i].userId, r[i].name, r[i].kind) {
      if i == k {
        assert r[i] == u && r[j] == rows[j];
        if c.name == name && c.kind == kind {
          assert u == c;
        } else {
          assert rows[j] in rows;
        }
      } else if j == k {
        assert r[j] == u && r[i] == rows[i];
        if c.name == name && c.kind == kind {
          assert u == c;
        } else {
          assert rows[i] in rows;
        }
      } else {
        assert r[i] == rows[i] && r[j] == rows[j];
      }
    }
  }

  /** Removing rows never creates a duplicate. */
  lemma RemoveKeepsUnique(rows: seq<Category>, id: Uuid)
    requires UniqueNames(rows) && UniqueCategoryIds(rows)
    ensures UniqueNames(RemoveById(rows, id, CategoryIdOf)) && UniqueCategoryIds(RemoveById(rows, id, CategoryIdOf))
  {
    FilterKeepsUnique(rows, IdIsNot(CategoryIdOf, id));
  }

  lemma FilterKeepsUnique(rows: seq<Category>, p: Category -> bool)
    requires UniqueNames(rows) && UniqueCategoryIds(rows)
    ensures UniqueNames(Filter(rows, p)) && UniqueCategoryIds(Filter(rows, p))
  {
    var distinct := (a: Category, b: Category) => !Named(b, a.userId, a.name, a.kind) && a.id != b.id;
    assert Pairwise(rows, distinct);
    FilterPairwise(rows, p, distinct);
    var f := Filter(rows, p);
    assert forall i, j :: 0 <= i < j < |f| ==> distinct(f[i], f[j]);
  }

  class CategoryService {
    /** The categories table. */
    var rows: seq<Category>

    ghost predicate Valid()
      reads this
    {
      UniqueNames(rows) && UniqueCategoryIds(rows)
    }

    constructor ()
      ensures Valid() && rows == []
    {
      rows := [];
    }

    /** createCategory. newId is the id the database generates for the new row. */
    method CreateCategory(request: CategoryRequest, userId: Uuid, newId: Uuid) returns (r: Result<Category>)
      requires Valid()
      requires forall c :: c in rows ==> c.id != newId
      modifies this
      ensures Valid()
      ensures old(ExistsByUserIdAndNameAndType(rows, userId, request.name, request.kind))
          ==> r == Err("Category already exists") && rows == old(rows)
      ensures !old(ExistsByUserIdAndNameAndType(rows, userId, request.name, request.kind))
          ==> r == Ok(Category(newId, userId, request.name, request.kind)) && rows == old(rows) + [r.value]
    {
      if ExistsByUserIdAndNameAndType(rows, userId, request.name, request.kind) {
        return Err("Category already exists");
      }
      var category := Category(newId, userId, request.name, request.kind);
      AddKeepsUnique(rows, category);
      rows := rows + [category];
      r := Ok(category);
    }

    /** updateCategory: the duplicate check runs only when the name or the type
        changes, so saving a category under its own name and type succeeds. */
    method UpdateCategory(id: Uuid, request: CategoryRequest, userId: Uuid) returns (r: Result<Category>)
      requires Valid()
      modifies this
      ensures Valid()
      ensures old(GetCategoryById(rows, id, userId)).Err?
          ==> r == old(GetCategoryById(rows, id, userId)) && rows == old(rows)
      ensures old(GetCategoryById(rows, id, userId)).Ok? ==>
        var c := old(GetCategoryById(rows, id, userId)).value;
        if (c.name != request.name || c.kind != request.kind)
           && old(ExistsByUserIdAndNameAndType(rows, userId, request.name, request.kind))
        then r == Err("Category with this name and type already exists") && rows == old(rows)
        else r == Ok(c.(name := request.name, kind := request.kind))
             && rows == ReplaceById(old(rows), r.value, CategoryIdOf)
    {
      var found := GetCategoryById(rows, id, userId);
      if found.Err? {
        return found;
      }
      var category := found.value;
      if category.name != request.name || category.kind != request.kind {
        if ExistsByUserIdAndNameAndType(rows, userId, request.name, request.kind) {
          return Err("Category with this name and type already exists");
        }
      }
      var updated := category.(name := request.name, kind := request.kind);
      RenameKeepsUnique(rows, category, request.name, request.kind);
      rows := ReplaceById(rows, updated, CategoryIdOf);
      r := Ok(updated);
    }

    /** deleteCategory */
    method DeleteCategory(id: Uuid, userId: Uuid) returns (r: Result<()>)
      requires Valid()
      modifies this
      ensures Valid()
      ensures old(GetCategoryById(rows, id, userId)).Err?
          ==> r == Err(old(GetCategoryById(rows, id, userId)).error) && rows == old(rows)
      ensures old(GetCategoryById(rows, id, userId)).Ok? ==> r == Ok(()) && rows == RemoveById(old(rows), id, CategoryIdOf)
    {
      var found := GetCategoryById(rows, id, userId);
      if found.Err? {
        return Err(found.error);
      }
      RemoveKeepsUnique(rows, id);
      rows := RemoveById(rows, id, CategoryIdOf);
      r := Ok(());
    }
  }
}

=== FILE: domain.dfy ===
/** The persisted entities and the request records of the back end. */
module Domain {
  import opened Wrappers
  import opened Money
  import opened Calendar

  /** A java.util.UUID, as the 36-character text its toString() prints. */
  type Uuid = s: string | |s| == 36 witness "00000000-0000-0000-0000-000000000000"

  datatype TransactionType = INCOME | EXPENSE

  /** TransactionType.toString(): the constant's name. */
  function TypeName(k: TransactionType): string {
    match k
    case INCOME => "INCOME"
    case EXPENSE => "EXPENSE"
  }

  /** A row of the transactions table. A null column is None. */
  datatype Transaction = Transaction(
    id: Uuid,
    userId: Uuid,
    categoryId: Option<Uuid>,
    amount: Amount,
    kind: TransactionType,
    description: Option<string>,
    date: Option<Date>)

  /** The body of a create or update request (TransactionRequest). */
  datatype TransactionRequest = TransactionRequest(
    categoryId: Option<Uuid>,
    amount: Amount,
    kind: TransactionType,
    description: Option<string>,
    date: Option<Date>)

  /** A row of the categories table. */
  datatype Category = Category(id: Uuid, userId: Uuid, name: string, kind: TransactionType)

  /** The body of a category create or update request (CategoryRequest). */
  datatype CategoryRequest = CategoryRequest(name: string, kind: TransactionType)

  /** The figures of TransactionSummary. */
  datatype TransactionSummary = TransactionSummary(
    totalIncome: Amount,
    totalExpense: Amount,
    balance: Amount,
    categoryBreakdown: map<string, Amount>,
    transactionCount: nat)

  /** The primary keys, as functions for the generic table operations. */
  function TransactionIdOf(t: Transaction): Uuid {
    t.id
  }

  function CategoryIdOf(c: Category): Uuid {
    c.id
  }

  /** No two rows of a table share an id (the primary key). */
  predicate UniqueTransactionIds(rows: seq<Transaction>) {
    forall i, j :: 0 <= i < j < |rows| ==> rows[i].id != rows[j].id
  }

  predicate UniqueCategoryIds(rows: seq<Category>) {
    forall i, j :: 0 <= i < j < |rows| ==> rows[i].id != rows[j].id
  }
}

=== FILE: http.dfy ===
/** What the two controllers share: the response envelope, the status codes
    they use, and reading the caller's id from the Authorization header. */
module Http {
  import opened Wrappers
  import opened Text
  import opened Domain

  const OK := 200
  const CREATED := 201
  const BAD_REQUEST := 400
  const NOT_FOUND := 404
  const INTERNAL_SERVER_ERROR := 500

  /** The ApiResponse body: a message with data, or an error message. A null
      data field is None. */
  datatype ApiResponse<T> = Success(message: string, data: Option<T>) | Error(message: string)

  datatype Response<T> = Response(status: int, body: ApiResponse<T>)

  /** JwtConfig.getUserIdFromToken followed by UUID.fromString: the caller's id,
      or the message of the exception either raises. The signature check is
      not modelled. */
  type Identify = string -> Result<Uuid>

  const BearerPrefix := "Bearer "
  const InvalidHeader := "Invalid authorization header"

  /** The token of an Authorization header: a missing header, or one without
      the "Bearer " prefix, is refused; otherwise the first 7 characters go. */
  function ExtractBearerToken(header: Option<string>): (r: Result<string>)
    ensures r.Err? <==> header.None? || !StartsWith(header.value, BearerPrefix)
    ensures r.Err? ==> r.error == InvalidHeader
    ensures r.Ok? ==> header.value == BearerPrefix + r.value
  {
    if header.None? || !StartsWith(header.value, BearerPrefix) then
      Err(InvalidHeader)
    else
      assert header.value == header.value[..7] + header.value[7..];
      Ok(header.value[7..])
  }

  /** getUserIdFromHeader (the same in both controllers). */
  function UserIdFromHeader(identify: Identify, header: Option<string>): (r: Result<Uuid>)
    ensures ExtractBearerToken(header).Err? ==> r == Err(InvalidHeader)
    ensures ExtractBearerToken(header).Ok? ==> r == identify(ExtractBearerToken(header).value)
  {
    match ExtractBearerToken(header)
    case Err(message) => Err(message)
    case Ok(token) => identify(token)
  }

  /** The 2xx answer of a handler, or the given failure status with the
      handler's prefix in front of the exception's message. */
  function Answer<T>(outcome: Result<T>, okStatus: int, message: string, failStatus: int, prefix: string)
    : (r: Response<T>)
    ensures outcome.Ok? ==> r == Response(okStatus, Success(message, Some(outcome.value)))
    ensures outcome.Err? ==> r == Response(failStatus, Error(prefix + outcome.error))
  {
    match outcome
    case Ok(value) => Response(okStatus, Success(message, Some(value)))
    case Err(error) => Response(failStatus, Error(prefix + error))
  }

  /** Composes two steps that may throw. */
  function Then<A, B>(first: Result<A>, next: A -> Result<B>): (r: Result<B>)
    ensures first.Err? ==> r == Err(first.error)
    ensures first.Ok? ==> r == next(first.value)
  {
    match first
    case Err(e) => Err(e)
    case Ok(a) => next(a)
  }
}

=== FILE: login.dfy ===
/** Login: the email-and-password screen, in login or sign-up mode. The
    provider's answer is a parameter. */
module Login {
  import opened Wrappers
  import opened Text

  const LoggedInText := "Login successful!"
  const SignedUpText := "Sign up successful! Please check your email to confirm your account."
  const Fallback := "An error occurred"
  const Dashboard := "/dashboard"

  /** Which provider call a submit makes. */
  datatype ProviderCall = SignIn | SignUp

  class Login {
    var isLogin: bool
    var email: string
    var password: string
    var loading: bool
    var error: string
    var message: string
    /** The route the 500 ms timer navigates to, once scheduled. */
    var navigation: Option<string>

    constructor ()
      ensures isLogin && email == "" && password == "" && !loading && error == "" && message == ""
      ensures navigation.None?
    {
      isLogin := true;
      email := "";
      password := "";
      loading := false;
      error := "";
      message := "";
      navigation := None;
    }

    /** The submit button is enabled. */
    predicate CanSubmit()
      reads this
    {
      !loading
    }

    /** handleSubmit, submitted by the button that is disabled while loading:
        exactly one provider call, chosen by the mode. */
    method Submit(outcome: Result<()>) returns (call: ProviderCall)
      requires CanSubmit()
      modifies this
      ensures !loading && CanSubmit()
      ensures call == (if isLogin then SignIn else SignUp)
      ensures isLogin == old(isLogin) && email == old(email) && password == old(password)
      ensures outcome.Ok? && call == SignIn ==>
        message == LoggedInText && error == "" && navigation == Some(Dashboard)
      ensures outcome.Ok? && call == SignUp ==>
        message == SignedUpText && error == "" && navigation == old(navigation)
      ensures outcome.Err? ==>
        error == MessageOr(outcome.error, Fallback) && message == "" && navigation == old(navigation)
    {
      loading := true;
      error := "";
      message := "";
      if isLogin {
        call := SignIn;
        if outcome.Ok? {
          message := LoggedInText;
          navigation := Some(Dashboard);
        }
      } else {
        call := SignUp;
        if outcome.Ok? {
          message := SignedUpText;
        }
      }
      if outcome.Err? {
        error := MessageOr(outcome.error, Fallback);
      }
      loading := false;
    }

    /** The mode toggle: the other mode, with no message left over. */
    method ToggleMode()
      modifies this
      ensures isLogin == !old(isLogin) && error == "" && message == ""
      ensures email == old(email) && password == old(password) && loading == old(loading)
      ensures navigation == old(navigation)
    {
      isLogin := !isLogin;
      error := "";
      message := "";
    }
  }
}

=== FILE: money.dfy ===
/** Monetary amounts. The back end keeps them as java.math.BigDecimal, which is
    exact; here an amount is an integer count of hundredths (paise), so 150.00
    is 15000, and Text is what BigDecimal.toString prints for such a value. */
module Money {
  import opened Wrappers
  import opened Text

  type Amount = int

  /** 10000.00: the amount from which a transaction counts as high. */
  const HighAmount: Amount := 1000000

  function UnsignedText(n: nat): (r: string)
    ensures |r| >= 4 && r[|r| - 3] == '.'
  {
    NatText(n / 100) + "." + Pad2(n % 100)
  }

  /** BigDecimal.toString of a value with two decimals, e.g. "-12.05". */
  function AmountText(a: Amount): (r: string)
    ensures |r| >= 4
    ensures (a < 0) == (r[0] == '-')
  {
    if a < 0 then "-" + UnsignedText(-a) else UnsignedText(a)
  }

  function ParseUnsigned(s: string): Option<nat> {
    if |s| < 4 || s[|s| - 3] != '.' then None
    else
      var whole, cents := s[..|s| - 3], s[|s| - 2..];
      if whole == [] || !AllDigits(whole) || !AllDigits(cents) then None
      else Some(100 * ParseDigits(whole) + ParseDigits(cents))
  }

  /** Reads an amount back from its text; None for malformed text. */
  function ParseAmount(s: string): Option<Amount> {
    if s != [] && s[0] == '-' then
      match ParseUnsigned(s[1..])
      case Some(n) => Some(-(n as int))
      case None => None
    else
      match ParseUnsigned(s)
      case Some(n) => Some(n)
      case None => None
  }

  lemma ParseUnsignedText(n: nat)
    ensures ParseUnsigned(UnsignedText(n)) == Some(n)
  {
    var w, c := NatText(n / 100), Pad2(n % 100);
    var s := UnsignedText(n);
    assert s == w + "." + c;
    assert s[..|s| - 3] == w;
    assert s[|s| - 2..] == c;
    ParseNatText(n / 100);
    ParsePad2(n % 100);
  }

  /** Printing an amount loses nothing: the text reads back as the amount. */
  lemma ParseAmountText(a: Amount)
    ensures ParseAmount(AmountText(a)) == Some(a)
  {
    if a < 0 {
      var u := UnsignedText(-a);
      var s := "-" + u;
      assert s == AmountText(a);
      assert s != [] && s[0] == '-' && s[1..] == u;
      ParseUnsignedText(-a);
      assert ParseUnsigned(s[1..]) == Some(-a);
    } else {
      var u := UnsignedText(a);
      assert u == AmountText(a);
      ParseUnsignedText(a);
      assert u[0] == NatText(a / 100)[0];
    }
  }

  lemma AmountTextInjective(a: Amount, b: Amount)
    requires AmountText(a) == AmountText(b)
    ensures a == b
  {
    ParseAmountText(a);
    ParseAmountText(b);
  }
}

=== FILE: otp_login.dfy ===
/** OtpLogin: the passwordless sign-in screen. Its React state is the fields of
    a class; each handler, the cooldown tick and the input's change handler is
    a method. A handler runs to its end in one step, and the provider's answer
    is a parameter: Ok, or Err with the thrown error's message. */
module OtpLogin {
  import opened Wrappers
  import opened Text

  const CodeLength := 8
  const Cooldown := 60

  const SentText := "✅ OTP sent! Check your email inbox."
  const LoggedInText := "✅ Login successful!"
  const ResentText := "✅ New OTP sent to your email!"
  const SendFallback := "Failed to send OTP"
  const VerifyFallback := "Invalid OTP"
  const ResendFallback := "Failed to resend OTP"
  const SendThrottledText :=
    "⏰ Too many attempts! Please wait a few minutes and try again. This is a security measure to protect your account."
  const BadEmailText := "❌ Invalid email address. Please check and try again."
  const VerifyThrottledText := "⏰ Too many verification attempts! Please wait a few minutes before trying again."
  const ExpiredText := "⏰ Code expired (60s limit). Click \"Resend OTP\" to get a new code."
  const BadCodeText := "❌ Invalid code. Please check and try again, or click \"Resend OTP\"."
  const ResendThrottledText :=
    "⏰ Rate limit reached! You've requested too many codes. Please wait 5-10 minutes and try again."
  const Dashboard := "/dashboard"

  /** How a provider error is read. */
  datatype Failure = Throttled | BadEmail | Expired | BadCode | Unrecognised

  /** The first test of every classification: "429" anywhere, or "rate limit"
      in any case. */
  predicate RateLimited(m: string) {
    Contains(m, "429") || Contains(ToLower(m), "rate limit")
  }

  /** The send handler's reading of an error, first match wins. */
  function SendFailure(m: string): (r: Failure)
    ensures RateLimited(m) ==> r == Throttled
    ensures !RateLimited(m) && Contains(ToLower(m), "email") ==> r == BadEmail
    ensures !RateLimited(m) && !Contains(ToLower(m), "email") ==> r == Unrecognised
  {
    if RateLimited(m) then Throttled
    else if Contains(ToLower(m), "email") then BadEmail
    else Unrecognised
  }

  /** The verify handler's reading of an error, first match wins. */
  function VerifyFailure(m: string): (r: Failure)
    ensures r in {Throttled, Expired, BadCode, Unrecognised}
    ensures RateLimited(m) ==> r == Throttled
    ensures !RateLimited(m) && Contains(ToLower(m), "expired") ==> r == Expired
    ensures !RateLimited(m) && !Contains(ToLower(m), "expired") && Contains(ToLower(m), "invalid") ==> r == BadCode
    ensures !RateLimited(m) && !Contains(ToLower(m), "expired") && !Contains(ToLower(m), "invalid") ==> r == Unrecognised
  {
    if RateLimited(m) then Throttled
    else if Contains(ToLower(m), "expired") then Expired
    else if Contains(ToLower(m), "invalid") then BadCode
    else Unrecognised
  }

  /** The resend handler's reading of an error: throttling or nothing. */
  function ResendFailure(m: string): (r: Failure)
    ensures r == Throttled <==> RateLimited(m)
    ensures r != Throttled ==> r == Unrecognised
  {
    if RateLimited(m) then Throttled else Unrecognised
  }

  /** The classifications look at the lower-case form only: two messages
      that differ in letter case alone are read alike. */
  lemma FailureIgnoresCase(a: string, b: string)
    requires ToLower(a) == ToLower(b)
    ensures SendFailure(a) == SendFailure(b)
    ensures VerifyFailure(a) == VerifyFailure(b)
    ensures ResendFailure(a) == ResendFailure(b)
  {
    LoweringKeepsDigits(a, "429");
    LoweringKeepsDigits(b, "429");
  }

  /** The error shown after a failed send. */
  function SendErrorText(m: string): (r: string)
    ensures SendFailure(m) == Throttled ==> r == SendThrottledText
    ensures SendFailure(m) == BadEmail ==> r == BadEmailText
    ensures SendFailure(m) == Unrecognised ==> r == "❌ " + m
  {
    match SendFailure(m)
    case Throttled => SendThrottledText
    case BadEmail => BadEmailText
    case _ => "❌ " + m
  }

  /** The error shown after a failed verification. */
  function VerifyErrorText(m: string): (r: string)
    ensures VerifyFailure(m) == Throttled ==> r == VerifyThrottledText
    ensures VerifyFailure(m) == Expired ==> r == ExpiredText
    ensures VerifyFailure(m) == BadCode ==> r == BadCodeText
    ensures VerifyFailure(m) == Unrecognised ==> r == "❌ " + m
  {
    match VerifyFailure(m)
    case Throttled => VerifyThrottledText
    case Expired => ExpiredText
    case BadCode => BadCodeText
    case _ => "❌ " + m
  }

  /** The error shown after a failed resend. */
  function ResendErrorText(m: string): (r: string)
    ensures RateLimited(m) ==> r == ResendThrottledText
    ensures !RateLimited(m) ==> r == "❌ " + m
  {
    match ResendFailure(m)
    case Throttled => ResendThrottledText
    case _ => "❌ " + m
  }

  /** The code field's change handler: the digits typed, at most eight. */
  function SanitiseCode(raw: string): (r: string)
    ensures AllDigits(r) && |r| <= CodeLength
    ensures |r| == CodeLength <==> |DigitsOnly(raw)| >= CodeLength
    ensures |r| <= |DigitsOnly(raw)| && r == DigitsOnly(raw)[..|r|]
    ensures AllDigits(raw) && |raw| <= CodeLength ==> r == raw
  {
    Take(DigitsOnly(raw), CodeLength)
  }

  /** Sanitising what is already sanitised changes nothing. */
  lemma SanitiseIdempotent(raw: string)
    ensures SanitiseCode(SanitiseCode(raw)) == SanitiseCode(raw)
  {
  }

  class OtpLogin {
    var email: string
    var otp: string
    var loading: bool
    var error: string
    var message: string
    var otpSent: bool
    var resendCooldown: nat
    /** The route the 500 ms timer navigates to, once scheduled. */
    var navigation: Option<string>

    /** The digits-only, at most eight characters code and the bounded
        cooldown every handler keeps. */
    ghost predicate Valid()
      reads this
    {
      AllDigits(otp) && |otp| <= CodeLength && resendCooldown <= Cooldown
    }

    constructor ()
      ensures Valid()
      ensures email == "" && otp == "" && !loading && error == "" && message == ""
      ensures !otpSent && resendCooldown == 0 && navigation.None?
    {
      email := "";
      otp := "";
      loading := false;
      error := "";
      message := "";
      otpSent := false;
      resendCooldown := 0;
      navigation := None;
    }

    /** The verify button is enabled. */
    predicate CanVerify()
      reads this
    {
      !loading && |otp| == CodeLength
    }

    /** The resend button is enabled. */
    predicate CanResend()
      reads this
    {
      !loading && resendCooldown == 0
    }

    /** The email field's change handler. */
    method SetEmail(raw: string)
      modifies this
      ensures email == raw
      ensures otp == old(otp) && loading == old(loading) && error == old(error) && message == old(message)
      ensures otpSent == old(otpSent) && resendCooldown == old(resendCooldown) && navigation == old(navigation)
    {
      email := raw;
    }

    /** The code field's change handler. */
    method SetOtp(raw: string)
      requires Valid()
      modifies this
      ensures Valid()
      ensures otp == SanitiseCode(raw)
      ensures CanVerify() <==> !loading && |DigitsOnly(raw)| >= CodeLength
      ensures email == old(email) && loading == old(loading) && error == old(error) && message == old(message)
      ensures otpSent == old(otpSent) && resendCooldown == old(resendCooldown) && navigation == old(navigation)
    {
      otp := SanitiseCode(raw);
    }

    /** One second of the cooldown effect: down by one while positive. */
    method Tick()
      requires Valid()
      modifies this
      ensures Valid()
      ensures resendCooldown == if old(resendCooldown) > 0 then old(resendCooldown) - 1 else 0
      ensures CanResend() <==> !loading && old(resendCooldown) <= 1
      ensures email == old(email) && otp == old(otp) && loading == old(loading) && error == old(error)
      ensures message == old(message) && otpSent == old(otpSent) && navigation == old(navigation)
    {
      if resendCooldown > 0 {
        resendCooldown := resendCooldown - 1;
      }
    }

    /** handleSendOtp, submitted by the send button, which is disabled while
        loading. */
    method SendOtp(outcome: Result<()>)
      requires Valid() && !loading
      modifies this
      ensures Valid() && !loading
      ensures outcome.Ok? ==>
        otpSent && message == SentText && error == "" && resendCooldown == Cooldown && !CanResend()
      ensures outcome.Err? ==>
        && otpSent == old(otpSent) && message == "" && resendCooldown == old(resendCooldown)
        && error == SendErrorText(MessageOr(outcome.error, SendFallback))
      ensures email == old(email) && otp == old(otp) && navigation == old(navigation)
    {
      loading := true;
      error := "";
      message := "";
      if outcome.Ok? {
        otpSent := true;
        message := SentText;
        resendCooldown := Cooldown;
      } else {
        error := SendErrorText(MessageOr(outcome.error, SendFallback));
      }
      loading := false;
    }

    /** handleVerifyOtp, submitted only by the verify button, which is enabled
        when CanVerify holds: success schedules the move to the dashboard; a
        failure keeps the code typed. */
    method VerifyOtp(outcome: Result<()>)
      requires Valid() && CanVerify()
      modifies this
      ensures Valid() && !loading
      ensures outcome.Ok? ==> message == LoggedInText && error == "" && navigation == Some(Dashboard)
      ensures outcome.Err? ==>
        && message == "" && navigation == old(navigation)
        && error == VerifyErrorText(MessageOr(outcome.error, VerifyFallback))
      ensures email == old(email) && otp == old(otp) && otpSent == old(otpSent)
      ensures resendCooldown == old(resendCooldown)
    {
      loading := true;
      error := "";
      message := "";
      if outcome.Ok? {
        message := LoggedInText;
        navigation := Some(Dashboard);
      } else {
        error := VerifyErrorText(MessageOr(outcome.error, VerifyFallback));
      }
      loading := false;
    }

    /** handleResendOtp, called only by the resend button, which is enabled
        when CanResend holds, so no code is requested during the cooldown: the
        code is cleared before the provider is asked. */
    method ResendOtp(outcome: Result<()>)
      requires Valid() && CanResend()
      modifies this
      ensures Valid() && !loading && otp == ""
      ensures outcome.Ok? ==> message == ResentText && error == "" && resendCooldown == Cooldown && !CanResend()
      ensures outcome.Err? ==>
        && message == "" && resendCooldown == old(resendCooldown)
        && error == ResendErrorText(MessageOr(outcome.error, ResendFallback))
      ensures email == old(email) && otpSent == old(otpSent) && navigation == old(navigation)
    {
      otp := "";
      loading := true;
      error := "";
      message := "";
      if outcome.Ok? {
        message := ResentText;
        resendCooldown := Cooldown;
      } else {
        error := ResendErrorText(MessageOr(outcome.error, ResendFallback));
      }
      loading := false;
    }

    /** The "Change Email" button: back to the email form, cooldown lifted. */
    method ChangeEmail()
      requires Valid()
      modifies this
      ensures Valid()
      ensures !otpSent && otp == "" && error == "" && message == "" && resendCooldown == 0
      ensures email == old(email) && loading == old(loading) && navigation == old(navigation)
    {
      otpSent := false;
      otp := "";
      error := "";
      message := "";
      resendCooldown := 0;
    }
  }
}

=== FILE: pdf_service.dfy ===
/** PdfService: the figures and texts of the transaction report. The iText
    document itself (fonts, tables, cell styling, the bytes) is not modelled;
    a Report holds what the document shows. */
module PdfService {
  import opened Wrappers
  import opened Text
  import opened Money
  import opened Calendar
  import opened Domain
  import opened Seqs
  import opened TransactionService

  datatype Rgb = Rgb(red: int, green: int, blue: int)

  const IncomeColour := Rgb(220, 252, 231)
  const ExpenseColour := Rgb(254, 226, 226)
  const NonNegativeBalanceColour := Rgb(219, 234, 254)
  const Rupee := "₹"
  const NoTransactionsText := "No transactions found for this period."
  const PdfErrorPrefix := "Error generating PDF: "

  /** t.getType().toString().equals(name) */
  function TypeIs(name: string): Transaction -> bool {
    (t: Transaction) => TypeName(t.kind) == name
  }

  /** The report's income total: the stream of "INCOME" rows, summed. */
  function PdfIncome(ts: seq<Transaction>): Amount {
    AmountTotal(Filter(ts, TypeIs("INCOME")))
  }

  /** The report's expense total: the stream of "EXPENSE" rows, summed. */
  function PdfExpense(ts: seq<Transaction>): Amount {
    AmountTotal(Filter(ts, TypeIs("EXPENSE")))
  }

  /** The report's balance: its income total less its expense total. */
  function PdfBalance(ts: seq<Transaction>): Amount {
    PdfIncome(ts) - PdfExpense(ts)
  }

  /** The report and the summary agree: the stream filters on the type's name
      select the same rows as the summary's INCOME / not-INCOME split. */
  lemma PdfTotalsMatchSummary(ts: seq<Transaction>, categories: seq<Category>)
    ensures PdfIncome(ts) == SummaryOf(ts, categories).totalIncome
    ensures PdfExpense(ts) == SummaryOf(ts, categories).totalExpense
    ensures PdfBalance(ts) == SummaryOf(ts, categories).balance
  {
    FilterAgree(ts, TypeIs("INCOME"), IsIncome);
    FilterAgree(ts, TypeIs("EXPENSE"), IsExpense);
  }

  /** The background of the balance row. */
  function BalanceColour(balance: Amount): (c: Rgb)
    ensures c == NonNegativeBalanceColour <==> balance >= 0
    ensures c == ExpenseColour <==> balance < 0
  {
    if balance >= 0 then NonNegativeBalanceColour else ExpenseColour
  }

  /** The "Period: " text: both dates as "MMM dd, yyyy", or "All Time". */
  function PeriodLabel(startDate: Option<Date>, endDate: Option<Date>): (r: string)
    ensures startDate.Some? && endDate.Some? ==>
      |r| == 27 && r[..12] == MediumText(startDate.value) && r[12..15] == " - " && r[15..] == MediumText(endDate.value)
    ensures !(startDate.Some? && endDate.Some?) ==> r == "All Time"
  {
    if startDate.Some? && endDate.Some? then
      MediumText(startDate.value) + " - " + MediumText(endDate.value)
    else
      "All Time"
  }

  /** A date range shows as a range only when both ends are given; one end
      alone is reported as "All Time" although the rows were filtered by it. */
  lemma PeriodLabelNeedsBothDates(d: Date)
    ensures PeriodLabel(Some(d), None) == PeriodLabel(None, Some(d)) == PeriodLabel(None, None)
    ensures PeriodLabel(Some(d), Some(d)) != PeriodLabel(None, None)
  {
    assert |PeriodLabel(None, None)| == 8;
  }

  /** The grouping key of the category breakdown: "Category " and the first
      eight characters of the category id. */
  function CategoryKey(t: Transaction): (r: Option<string>)
    ensures r.Some? <==> t.categoryId.Some?
    ensures r.Some? ==> |r.value| == 17 && r.value[..9] == "Category " && r.value[9..] == t.categoryId.value[..8]
  {
    if t.categoryId.Some? then Some("Category " + t.categoryId.value[..8]) else None
  }

  /** Two categories whose ids share their first eight characters share a key,
      so the report adds their amounts together. */
  lemma CategoryKeyMerges(a: Transaction, b: Transaction)
    requires a.categoryId.Some? && b.categoryId.Some?
    requires a.categoryId.value[..8] == b.categoryId.value[..8]
    ensures CategoryKey(a) == CategoryKey(b)
  {
  }

  /** The category breakdown of the report. */
  function PdfBreakdown(ts: seq<Transaction>): map<string, Amount> {
    GroupTotals(ts, CategoryKey)
  }

  /** The breakdown section, present only when there are transactions and at
      least one of them has a category id. */
  function BreakdownSection(ts: seq<Transaction>): (r: Option<map<string, Amount>>)
    ensures r.None? <==> forall t :: t in ts ==> t.categoryId.None?
    ensures r.Some? ==> forall key :: key in r.value ==>
      (exists t :: t in ts && CategoryKey(t) == Some(key))
      && r.value[key] == AmountTotal(Filter(ts, FiledUnder(CategoryKey, key)))
    ensures r.Some? ==> forall t :: t in ts && t.categoryId.Some? ==> CategoryKey(t).value in r.value
  {
    var m := PdfBreakdown(ts);
    forall t | t in ts && t.categoryId.Some? ensures CategoryKey(t).value in m {
      GroupTotalsKeys(ts, CategoryKey, CategoryKey(t).value);
    }
    forall key | key in m
      ensures (exists t :: t in ts && CategoryKey(t) == Some(key))
      ensures m[key] == AmountTotal(Filter(ts, FiledUnder(CategoryKey, key)))
    {
      GroupTotalsKeys(ts, CategoryKey, key);
      GroupTotalsValue(ts, CategoryKey, key);
    }
    if ts != [] && m != map[] then
      Some(m)
    else
      None
  }

  /** A row of the transaction details table. */
  datatype Row = Row(date: string, kind: string, kindColour: Rgb, description: string, amount: string)

  /** The amount cell: "+₹" for INCOME, "-₹" for any other type, then the
      amount's text. */
  function AmountCell(t: Transaction): (r: string)
    ensures |r| >= 2 && r[1..2] == Rupee
    ensures r[0] == (if t.kind == INCOME then '+' else '-')
    ensures r[2..] == AmountText(t.amount)
  {
    (if TypeName(t.kind) == "INCOME" then "+" else "-") + Rupee + AmountText(t.amount)
  }

  /** The amount cell reads back as the sign of the type and the amount itself. */
  lemma AmountCellRoundTrip(t: Transaction)
    ensures ParseAmount(AmountCell(t)[2..]) == Some(t.amount)
    ensures (AmountCell(t)[0] == '+') == (t.kind == INCOME)
  {
    ParseAmountText(t.amount);
  }

  /** The row of one transaction; its date must be present. */
  function RowOf(t: Transaction): (r: Row)
    requires t.date.Some?
    ensures r.date == MediumText(t.date.value)
    ensures r.kind == TypeName(t.kind)
    ensures r.kindColour == (if t.kind == INCOME then IncomeColour else ExpenseColour)
    ensures r.description == (if t.description.Some? then t.description.value else "-")
    ensures r.amount == AmountCell(t)
  {
    Row(
      MediumText(t.date.value),
      TypeName(t.kind),
      if TypeName(t.kind) == "INCOME" then IncomeColour else ExpenseColour,
      if t.description.Some? then t.description.value else "-",
      AmountCell(t))
  }

  predicate AllDated(ts: seq<Transaction>) {
    forall i :: 0 <= i < |ts| ==> ts[i].date.Some?
  }

  /** rows is the details table of ts: one row per transaction, in order. */
  predicate RowsOf(ts: seq<Transaction>, rows: seq<Row>) {
    |rows| == |ts| && forall i :: 0 <= i < |ts| ==> ts[i].date.Some? && rows[i] == RowOf(ts[i])
  }

  /** The rows loop of the details table. A transaction without a date makes
      the date formatting throw, which fails the whole report; nullDateMessage
      is that exception's message. */
  method BuildRows(transactions: seq<Transaction>, nullDateMessage: string) returns (r: Result<seq<Row>>)
    ensures r.Ok? <==> AllDated(transactions)
    ensures r.Ok? ==> RowsOf(transactions, r.value)
    ensures r.Err? ==> r.error == PdfErrorPrefix + nullDateMessage
  {
    var rows: seq<Row> := [];
    for i := 0 to |transactions|
      invariant AllDated(transactions[..i])
      invariant |rows| == i
      invariant forall k :: 0 <= k < i ==> transactions[k].date.Some? && rows[k] == RowOf(transactions[k])
    {
      var transaction := transactions[i];
      if transaction.date.None? {
        return Err(PdfErrorPrefix + nullDateMessage);
      }
      assert forall k :: 0 <= k < i + 1 ==> transactions[..i + 1][k] == transactions[k];
      rows := rows + [RowOf(transaction)];
    }
    assert transactions[..|transactions|] == transactions;
    r := Ok(rows);
  }

  /** The details section: the fixed sentence for an empty list, else a table. */
  datatype Details = NoTransactions(text: string) | Table(rows: seq<Row>)

  /** What the report shows. */
  datatype Report = Report(
    period: string,
    user: string,
    incomeCell: string,
    expenseCell: string,
    balanceCell: string,
    balanceColour: Rgb,
    breakdown: Option<map<string, Amount>>,
    details: Details,
    footer: string)

  /** The details section of a list whose every row has a date. */
  function DetailsOf(ts: seq<Transaction>): (d: Details)
    requires AllDated(ts)
    ensures d.NoTransactions? <==> ts == []
    ensures d.NoTransactions? ==> d.text == NoTransactionsText
    ensures d.Table? ==> RowsOf(ts, d.rows)
  {
    if ts == [] then NoTransactions(NoTransactionsText)
    else Table(seq(|ts|, i requires 0 <= i < |ts| => RowOf(ts[i])))
  }

  /** The report around a given details section. */
  function ReportWith(
    userEmail: Option<string>, ts: seq<Transaction>, startDate: Option<Date>, endDate: Option<Date>, today: Date,
    details: Details)
    : Report
  {
    Report(
      "Period: " + PeriodLabel(startDate, endDate),
      "User: " + (if userEmail.Some? then userEmail.value else "null"),
      Rupee + AmountText(PdfIncome(ts)),
      Rupee + AmountText(PdfExpense(ts)),
      Rupee + AmountText(PdfBalance(ts)),
      BalanceColour(PdfBalance(ts)),
      BreakdownSection(ts),
      details,
      "\n\nGenerated on: " + MediumText(today))
  }

  /** The report generateTransactionReport builds from a list whose every row
      has a date. */
  function ReportFor(
    userEmail: Option<string>, ts: seq<Transaction>, startDate: Option<Date>, endDate: Option<Date>, today: Date)
    : Report
    requires AllDated(ts)
  {
    ReportWith(userEmail, ts, startDate, endDate, today, DetailsOf(ts))
  }

  /** generateTransactionReport. userEmail is None when the token carries no
      email claim (it then prints as "null"); today is LocalDate.now(). */
  method GenerateTransactionReport(
    userEmail: Option<string>, transactions: seq<Transaction>, startDate: Option<Date>, endDate: Option<Date>,
    today: Date, nullDateMessage: string)
    returns (r: Result<Report>)
    ensures r.Ok? <==> AllDated(transactions)
    ensures r.Err? ==> r.error == PdfErrorPrefix + nullDateMessage
    ensures r.Ok? ==> r.value == ReportFor(userEmail, transactions, startDate, endDate, today)
    ensures r.Ok? ==>
      var balance := PdfBalance(transactions);
      && r.value.period == "Period: " + PeriodLabel(startDate, endDate)
      && r.value.user == "User: " + (if userEmail.Some? then userEmail.value else "null")
      && r.value.incomeCell == Rupee + AmountText(PdfIncome(transactions))
      && r.value.expenseCell == Rupee + AmountText(PdfExpense(transactions))
      && r.value.balanceCell == Rupee + AmountText(balance)
      && r.value.balanceColour == BalanceColour(balance)
      && r.value.breakdown == BreakdownSection(transactions)
      && (r.value.details.NoTransactions? <==> transactions == [])
      && (r.value.details.NoTransactions? ==> r.value.details.text == NoTransactionsText)
      && (r.value.details.Table? ==> RowsOf(transactions, r.value.details.rows))
      && r.value.footer == "\n\nGenerated on: " + MediumText(today)
  {
    var details := NoTransactions(NoTransactionsText);
    if transactions != [] {
      var rows := BuildRows(transactions, nullDateMessage);
      if rows.Err? {
        return Err(rows.error);
      }
      details := Table(rows.value);
      assert details.rows == DetailsOf(transactions).rows;
    }
    assert details == DetailsOf(transactions);
    r := Ok(ReportWith(userEmail, transactions, startDate, endDate, today, details));
  }
}

=== FILE: seqs.dfy ===
/** Selection and ordering of query results: a WHERE clause is a filter over the
    table's rows, an ORDER BY a stable insertion sort by a total preorder. */
module Seqs {

  function Filter<T>(s: seq<T>, p: T -> bool): (r: seq<T>)
    ensures |r| <= |s|
    ensures forall x :: x in r ==> x in s && p(x)
    ensures forall x :: x in s && p(x) ==> x in r
    ensures multiset(r) <= multiset(s)
    ensures forall i :: 0 <= i < |r| ==> p(r[i])
  {
    if s == [] then []
    else
      var rest := Filter(s[1..], p);
      assert s == [s[0]] + s[1..];
      if p(s[0]) then [s[0]] + rest else rest
  }

  /** Two conditions that agree on every row select the same rows. */
  lemma {:induction false} FilterAgree<T>(s: seq<T>, p: T -> bool, q: T -> bool)
    requires forall x :: x in s ==> p(x) == q(x)
    ensures Filter(s, p) == Filter(s, q)
  {
    if s != [] {
      FilterAgree(s[1..], p, q);
    }
  }

  /** Filtering twice is filtering once by the conjunction. */
  lemma {:induction false} FilterFilter<T>(s: seq<T>, p: T -> bool, q: T -> bool, pq: T -> bool)
    requires forall x :: x in s ==> pq(x) == (p(x) && q(x))
    ensures Filter(Filter(s, p), q) == Filter(s, pq)
  {
    if s != [] {
      FilterFilter(s[1..], p, q, pq);
    }
  }

  /** Filtering a sequence that grew by one element at its end. */
  lemma {:induction false} FilterAppend<T>(s: seq<T>, x: T, p: T -> bool)
    ensures Filter(s + [x], p) == Filter(s, p) + (if p(x) then [x] else [])
  {
    if s == [] {
      assert [x][1..] == [];
    } else {
      assert (s + [x])[1..] == s[1..] + [x];
      FilterAppend(s[1..], x, p);
    }
  }

  /** save() of an entity that exists: the row whose id (given by idOf) is
      updated's id is overwritten; every other row stays where it is. */
  function ReplaceById<T, K(==)>(rows: seq<T>, updated: T, idOf: T -> K): (r: seq<T>)
    ensures |r| == |rows|
    ensures forall i :: 0 <= i < |rows| ==> r[i] == if idOf(rows[i]) == idOf(updated) then updated else rows[i]
  {
    seq(|rows|, i requires 0 <= i < |rows| => if idOf(rows[i]) == idOf(updated) then updated else rows[i])
  }

  /** The rows whose id (given by idOf) is not id. */
  function IdIsNot<T, K(==)>(idOf: T -> K, id: K): T -> bool {
    (x: T) => idOf(x) != id
  }

  /** delete(): the rows with that id are gone, the others stay in order. */
  function RemoveById<T, K(==)>(rows: seq<T>, id: K, idOf: T -> K): (r: seq<T>)
    ensures forall x :: x in r ==> x in rows && idOf(x) != id
    ensures forall x :: x in rows && idOf(x) != id ==> x in r
  {
    Filter(rows, IdIsNot(idOf, id))
  }

  /** Every pair of elements, taken in order, is related by r. */
  ghost predicate Pairwise<T>(s: seq<T>, r: (T, T) -> bool) {
    forall i, j :: 0 <= i < j < |s| ==> r(s[i], s[j])
  }

  ghost predicate TotalPreorder<T(!new)>(leq: (T, T) -> bool) {
    && (forall a, b :: leq(a, b) || leq(b, a))
    && (forall a, b, c :: leq(a, b) && leq(b, c) ==> leq(a, c))
  }

  ghost predicate Sorted<T>(s: seq<T>, leq: (T, T) -> bool) {
    Pairwise(s, leq)
  }

  /** Puts x in front of the first element of s that it may precede (so in
      front of the first one leq ranks equal to it). Sort inserts the earliest
      row into the sorted rest, which makes the sort stable. */
  function Insert<T>(x: T, s: seq<T>, leq: (T, T) -> bool): (r: seq<T>)
    ensures multiset(r) == multiset(s) + multiset{x}
    ensures |r| == |s| + 1
  {
    if s == [] then [x]
    else if leq(x, s[0]) then [x] + s
    else
      assert s == [s[0]] + s[1..];
      [s[0]] + Insert(x, s[1..], leq)
  }

  /** The rows of s ordered by leq; rows that leq ranks equal keep their order. */
  function Sort<T>(s: seq<T>, leq: (T, T) -> bool): (r: seq<T>)
    ensures multiset(r) == multiset(s)
    ensures |r| == |s|
    ensures forall x :: x in r ==> x in s
    ensures forall x :: x in s ==> x in r
  {
    if s == [] then []
    else
      assert s == [s[0]] + s[1..];
      var r := Insert(s[0], Sort(s[1..], leq), leq);
      assert multiset(r) == multiset(s);
      assert forall x :: x in r ==> x in multiset(r);
      assert forall x :: x in s ==> x in multiset(s);
      r
  }

  lemma PairwiseCons<T>(x: T, s: seq<T>, leq: (T, T) -> bool)
    requires Pairwise(s, leq)
    requires forall y :: y in s ==> leq(x, y)
    ensures Pairwise([x] + s, leq)
  {
    var r := [x] + s;
    forall i, j | 0 <= i < j < |r| ensures leq(r[i], r[j]) {
      if i > 0 {
        assert r[i] == s[i - 1] && r[j] == s[j - 1];
      } else {
        assert r[j] == s[j - 1];
        assert r[j] in s;
      }
    }
  }

  /** A selection keeps the relative order of what it keeps, so a property of
      every ordered pair survives it. */
  lemma {:induction false} FilterPairwise<T>(s: seq<T>, p: T -> bool, r: (T, T) -> bool)
    requires Pairwise(s, r)
    ensures Pairwise(Filter(s, p), r)
  {
    if s != [] {
      var tail := s[1..];
      assert Pairwise(tail, r) by {
        forall i, j | 0 <= i < j < |tail| ensures r(tail[i], tail[j]) {
          assert tail[i] == s[i + 1] && tail[j] == s[j + 1];
        }
      }
      FilterPairwise(tail, p, r);
      if p(s[0]) {
        forall y | y in Filter(tail, p) ensures r(s[0], y) {
          var k :| 0 <= k < |tail| && tail[k] == y;
          assert s[k + 1] == y;
        }
        PairwiseCons(s[0], Filter(tail, p), r);
      }
    }
  }

  lemma {:induction false} InsertSorted<T(!new)>(x: T, s: seq<T>, leq: (T, T) -> bool)
    requires TotalPreorder(leq)
    requires Sorted(s, leq)
    ensures Sorted(Insert(x, s, leq), leq)
  {
    if s == [] {
    } else if leq(x, s[0]) {
      forall y | y in s ensures leq(x, y) {
        var k :| 0 <= k < |s| && s[k] == y;
        if k > 0 { assert leq(s[0], s[k]); }
      }
      PairwiseCons(x, s, leq);
    } else {
      var tail := s[1..];
      assert Sorted(tail, leq) by {
        forall i, j | 0 <= i < j < |tail| ensures leq(tail[i], tail[j]) {
          assert tail[i] == s[i + 1] && tail[j] == s[j + 1];
        }
      }
      InsertSorted(x, tail, leq);
      var r := Insert(x, tail, leq);
      forall y | y in r ensures leq(s[0], y) {
        assert y in multiset(r);
        if y == x {
        } else {
          assert y in multiset(tail);
          var k :| 0 <= k < |tail| && tail[k] == y;
          assert s[k + 1] == y;
        }
      }
      PairwiseCons(s[0], r, leq);
    }
  }

  lemma {:induction false} SortSorted<T(!new)>(s: seq<T>, leq: (T, T) -> bool)
    requires TotalPreorder(leq)
    ensures Sorted(Sort(s, leq), leq)
  {
    if s != [] {
      SortSorted(s[1..], leq);
      InsertSorted(s[0], Sort(s[1..], leq), leq);
    }
  }

  lemma {:induction false} FilterInsert<T(!new)>(x: T, s: seq<T>, leq: (T, T) -> bool, p: T -> bool)
    requires TotalPreorder(leq)
    requires Sorted(s, leq)
    ensures Filter(Insert(x, s, leq), p)
         == if p(x) then Insert(x, Filter(s, p), leq) else Filter(s, p)
  {
    if s == [] {
    } else if leq(x, s[0]) {
      assert Insert(x, s, leq) == [x] + s;
      assert ([x] + s)[1..] == s;
      var f := Filter(s, p);
      if p(x) && f != [] {
        assert f[0] in s;
        var k :| 0 <= k < |s| && s[k] == f[0];
        if k > 0 { assert leq(s[0], s[k]); }
        assert leq(x, f[0]);
      }
    } else {
      var tail := s[1..];
      assert Sorted(tail, leq) by {
        forall i, j | 0 <= i < j < |tail| ensures leq(tail[i], tail[j]) {
          assert tail[i] == s[i + 1] && tail[j] == s[j + 1];
        }
      }
      FilterInsert(x, tail, leq, p);
      var r := Insert(x, tail, leq);
      assert Insert(x, s, leq) == [s[0]] + r;
      assert ([s[0]] + r)[1..] == r;
      assert Filter(s, p) == if p(s[0]) then [s[0]] + Filter(tail, p) else Filter(tail, p);
      if p(s[0]) {
        assert !leq(x, ([s[0]] + Filter(tail, p))[0]);
        assert ([s[0]] + Filter(tail, p))[1..] == Filter(tail, p);
      }
    }
  }

  /** Selecting from an ordered result gives the ordered selection: the sort is
      stable, so the rows that remain keep their relative order. */
  lemma {:induction false} FilterSort<T(!new)>(s: seq<T>, leq: (T, T) -> bool, p: T -> bool)
    requires TotalPreorder(leq)
    ensures Filter(Sort(s, leq), p) == Sort(Filter(s, p), leq)
  {
    if s != [] {
      FilterSort(s[1..], leq, p);
      SortSorted(s[1..], leq);
      FilterInsert(s[0], Sort(s[1..], leq), leq, p);
    }
  }
}

=== FILE: settings.dfy ===
/** Settings: the password-change form. The provider's updateUser answer is
    a parameter, consulted only when the form passes both checks. */
module Settings {
  import opened Wrappers
  import opened Text

  const MinPasswordLength := 6
  const MismatchText := "Passwords do not match!"
  const TooShortText := "Password must be at least 6 characters!"
  const UpdatedText := "✅ Password updated successfully!"
  const UpdateFallback := "Failed to update password"

  /** The form's checks, mismatch first: the error that stops the submit, or
      None when the provider is to be asked. The length is JavaScript's, in
      UTF-16 code units. */
  function PasswordProblem(newPassword: string, confirmPassword: string): (r: Option<string>)
    ensures r.None? <==> newPassword == confirmPassword && Utf16Length(newPassword) >= MinPasswordLength
    ensures newPassword != confirmPassword ==> r == Some(MismatchText)
    ensures newPassword == confirmPassword && Utf16Length(newPassword) < MinPasswordLength ==> r == Some(TooShortText)
  {
    if newPassword != confirmPassword then Some(MismatchText)
    else if Utf16Length(newPassword) < MinPasswordLength then Some(TooShortText)
    else None
  }

  /** Two differing passwords are reported as a mismatch even when both are
      too short. */
  lemma MismatchTakesPrecedence(newPassword: string, confirmPassword: string)
    requires newPassword != confirmPassword && Utf16Length(newPassword) < MinPasswordLength
    ensures PasswordProblem(newPassword, confirmPassword) == Some(MismatchText)
  {
  }

  /** A password of three characters outside the Basic Multilingual Plane is
      six code units long, so it passes the length check. */
  lemma AstralPasswordLength()
    ensures Utf16Length("\U{1F600}\U{1F600}\U{1F600}") == 6
    ensures PasswordProblem("\U{1F600}\U{1F600}\U{1F600}", "\U{1F600}\U{1F600}\U{1F600}").None?
  {
    var s := "\U{1F600}\U{1F600}\U{1F600}";
    assert s[1..][1..] == "\U{1F600}";
    assert Utf16Length(s[1..][1..]) == 2;
  }

  class Settings {
    var newPassword: string
    var confirmPassword: string
    var loading: bool
    var error: string
    var message: string

    constructor ()
      ensures newPassword == "" && confirmPassword == "" && !loading && error == "" && message == ""
    {
      newPassword := "";
      confirmPassword := "";
      loading := false;
      error := "";
      message := "";
    }

    /** handlePasswordReset, submitted by the button that is disabled while
        loading. called tells whether updateUser was asked. */
    method ResetPassword(outcome: Result<()>) returns (called: bool)
      requires !loading
      modifies this
      ensures !loading
      ensures called <==> PasswordProblem(old(newPassword), old(confirmPassword)).None?
      ensures !called ==>
        && error == PasswordProblem(old(newPassword), old(confirmPassword)).value && message == ""
        && newPassword == old(newPassword) && confirmPassword == old(confirmPassword)
      ensures called && outcome.Ok? ==>
        message == UpdatedText && error == "" && newPassword == "" && confirmPassword == ""
      ensures called && outcome.Err? ==>
        && error == MessageOr(outcome.error, UpdateFallback) && message == ""
        && newPassword == old(newPassword) && confirmPassword == old(confirmPassword)
    {
      loading := true;
      error := "";
      message := "";
      if newPassword != confirmPassword {
        error := MismatchText;
        loading := false;
        return false;
      }
      if Utf16Length(newPassword) < MinPasswordLength {
        error := TooShortText;
        loading := false;
        return false;
      }
      called := true;
      if outcome.Ok? {
        message := UpdatedText;
        newPassword := "";
        confirmPassword := "";
      } else {
        error := MessageOr(outcome.error, UpdateFallback);
      }
      loading := false;
    }
  }
}

=== FILE: template_service.dfy ===
/** TemplateService: which Mustache template each message uses and what its
    context holds. The Mustache engine itself is a parameter. */
module TemplateService {
  import opened Wrappers
  import opened Text
  import opened Money
  import opened Calendar

  /** A value put into a template context. */
  datatype Value =
    | Str(s: string)
    | Int(i: int)
    | Bool(b: bool)
    | Null
    | Rows(rows: seq<map<string, string>>)

  type Context = map<string, Value>

  /** A template to render and the context to render it with. */
  datatype TemplateCall = TemplateCall(template: string, context: Context)

  /** The compiler and the resource loader together: given a resource path and
      a context, the rendered text or the message of the exception raised. */
  type Engine = (string, Context) -> Result<string>

  const Welcome := "welcome"
  const TransactionSuccess := "transaction-success"
  const TransactionUpdate := "transaction-update"
  const TransactionDelete := "transaction-delete"
  const GoodAdvice := "expense-threshold-good"
  const HighAdvice := "expense-threshold-high"
  const PositiveTip := "Great job! You have a positive balance this month."
  const NegativeTip := "Consider reviewing your expenses to improve your balance."
  const MonthlyReport := "monthly-report"
  const RenderErrorPrefix := "Error rendering template: "

  /** The class-path resource a template name resolves to. */
  function TemplatePath(name: string): (r: string)
    ensures StartsWith(r, "/templates/")
    ensures |r| == |name| + 20 && r[11..|r| - 9] == name && r[|r| - 9..] == ".mustache"
  {
    "/templates/" + name + ".mustache"
  }

  /** Distinct template names never share a resource. */
  lemma TemplatePathInjective(a: string, b: string)
    requires TemplatePath(a) == TemplatePath(b)
    ensures a == b
  {
    assert a == TemplatePath(a)[11..|TemplatePath(a)| - 9];
  }

  /** renderTemplate: any failure comes back as "Error rendering template: "
      followed by the original message. */
  function RenderTemplate(engine: Engine, call: TemplateCall): (r: Result<string>)
    ensures engine(TemplatePath(call.template), call.context).Ok?
        ==> r == engine(TemplatePath(call.template), call.context)
    ensures engine(TemplatePath(call.template), call.context).Err?
        ==> r == Err(RenderErrorPrefix + engine(TemplatePath(call.template), call.context).error)
  {
    match engine(TemplatePath(call.template), call.context)
    case Ok(text) => Ok(text)
    case Err(message) => Err(RenderErrorPrefix + message)
  }

  /** Rendering fails exactly when the engine fails, and the failure message
      always starts with the fixed prefix. */
  lemma RenderErrorIsPrefixed(engine: Engine, call: TemplateCall)
    ensures RenderTemplate(engine, call).Err? <==> engine(TemplatePath(call.template), call.context).Err?
    ensures RenderTemplate(engine, call).Err? ==> StartsWith(RenderTemplate(engine, call).error, RenderErrorPrefix)
  {
    var r := RenderTemplate(engine, call);
    if r.Err? {
      assert r.error[..|RenderErrorPrefix|] == RenderErrorPrefix;
    }
  }

  /** generateWelcomeMessage */
  function WelcomeCall(userName: string): (r: TemplateCall)
    ensures r.template == Welcome
    ensures r.context.Keys == {"userName"} && r.context["userName"] == Str(userName)
  {
    TemplateCall(Welcome, map["userName" := Str(userName)])
  }

  /** A Java String argument that may be null. */
  function OptionalStr(s: Option<string>): (v: Value)
    ensures v == Null <==> s.None?
    ensures s.Some? ==> v == Str(s.value)
  {
    match s
    case None => Null
    case Some(text) => Str(text)
  }

  /** generateTransactionSuccessMessage */
  function TransactionSuccessCall(transactionType: string, amount: string, description: Option<string>)
    : (r: TemplateCall)
    ensures r.template == TransactionSuccess
    ensures r.context.Keys == {"transactionType", "amount", "description"}
    ensures r.context["transactionType"] == Str(transactionType) && r.context["amount"] == Str(amount)
    ensures r.context["description"] == OptionalStr(description)
  {
    TemplateCall(TransactionSuccess, map[
      "transactionType" := Str(transactionType),
      "amount" := Str(amount),
      "description" := OptionalStr(description)])
  }

  /** generateTransactionUpdateMessage */
  function TransactionUpdateCall(transactionType: string, amount: string): (r: TemplateCall)
    ensures r.template == TransactionUpdate
    ensures r.context.Keys == {"transactionType", "amount"}
    ensures r.context["transactionType"] == Str(transactionType) && r.context["amount"] == Str(amount)
  {
    TemplateCall(TransactionUpdate, map["transactionType" := Str(transactionType), "amount" := Str(amount)])
  }

  /** generateTransactionDeleteMessage: no context at all. */
  function TransactionDeleteCall(): (r: TemplateCall)
    ensures r.template == TransactionDelete && r.context == map[]
  {
    TemplateCall(TransactionDelete, map[])
  }

  /** generateExpenseThresholdMessage: below 10000.00 the good advice, from
      10000.00 up the high advice, whatever the transaction type. */
  function ExpenseThresholdCall(transactionType: string, amount: Amount): (r: TemplateCall)
    ensures r.template == GoodAdvice <==> amount < HighAmount
    ensures r.template == HighAdvice <==> amount >= HighAmount
    ensures r.context.Keys == {"transactionType", "amount", "isExpense"}
    ensures r.context["transactionType"] == Str(transactionType)
    ensures r.context["amount"] == Str(AmountText(amount))
    ensures r.context["isExpense"] == Bool(transactionType == "EXPENSE")
  {
    var context := map[
      "transactionType" := Str(transactionType),
      "amount" := Str(AmountText(amount)),
      "isExpense" := Bool(transactionType == "EXPENSE")];
    if amount < HighAmount then TemplateCall(GoodAdvice, context) else TemplateCall(HighAdvice, context)
  }

  /** The template choice depends on the amount alone: an INCOME of 10000.00 is
      answered with the high advice just as an EXPENSE is. */
  lemma ThresholdIgnoresType(typeA: string, typeB: string, amount: Amount)
    ensures ExpenseThresholdCall(typeA, amount).template == ExpenseThresholdCall(typeB, amount).template
    ensures ExpenseThresholdCall("INCOME", HighAmount).template == HighAdvice
  {
  }

  /** The "categories" list of the monthly report: one row per name of order,
      with the name and the amount's text. order is the iteration order of the
      breakdown map. */
  function CategoryRows(breakdown: map<string, Amount>, order: seq<string>): (r: seq<map<string, string>>)
    requires forall i :: 0 <= i < |order| ==> order[i] in breakdown
    ensures |r| == |order|
    ensures forall i :: 0 <= i < |order| ==>
      r[i].Keys == {"name", "amount"} && r[i]["name"] == order[i] && r[i]["amount"] == AmountText(breakdown[order[i]])
  {
    seq(|order|, i requires 0 <= i < |order| =>
      map["name" := order[i], "amount" := AmountText(breakdown[order[i]])])
  }

  /** An enumeration of a map's keys: each key exactly once. */
  predicate Enumerates(order: seq<string>, breakdown: map<string, Amount>) {
    && (forall i :: 0 <= i < |order| ==> order[i] in breakdown)
    && (forall k :: k in breakdown ==> k in order)
    && (forall i, j :: 0 <= i < j < |order| ==> order[i] != order[j])
  }

  /** The categories list has exactly one row per breakdown entry, carrying its
      name and its amount. */
  lemma CategoryRowsOnePerEntry(breakdown: map<string, Amount>, order: seq<string>)
    requires Enumerates(order, breakdown)
    ensures var rows := CategoryRows(breakdown, order);
      && (forall i :: 0 <= i < |rows| ==>
            rows[i]["name"] in breakdown && rows[i]["amount"] == AmountText(breakdown[rows[i]["name"]]))
      && (forall name :: name in breakdown ==> exists i :: 0 <= i < |rows| && rows[i]["name"] == name)
      && (forall i, j :: 0 <= i < j < |rows| ==> rows[i]["name"] != rows[j]["name"])
  {
    var rows := CategoryRows(breakdown, order);
    assert forall i :: 0 <= i < |rows| ==> rows[i]["name"] == order[i];
    forall name | name in breakdown ensures exists i :: 0 <= i < |rows| && rows[i]["name"] == name {
      var i :| 0 <= i < |order| && order[i] == name;
      assert rows[i]["name"] == name;
    }
  }

  /** The figures of the monthly report's context: the user's name, the
      month's name, the year and the count as they are, and the three amounts
      as BigDecimal text. */
  function ReportFigures(
    userName: string, month: int, year: int, totalIncome: Amount, totalExpense: Amount,
    balance: Amount, transactionCount: int)
    : (c: Context)
    requires 1 <= month <= 12
    ensures "userName" in c && c["userName"] == Str(userName)
    ensures "month" in c && c["month"] == Str(MonthName(month))
    ensures "year" in c && c["year"] == Int(year)
    ensures "totalIncome" in c && c["totalIncome"] == Str(AmountText(totalIncome))
    ensures "totalExpense" in c && c["totalExpense"] == Str(AmountText(totalExpense))
    ensures "balance" in c && c["balance"] == Str(AmountText(balance))
    ensures "transactionCount" in c && c["transactionCount"] == Int(transactionCount)
    ensures c.Keys == {"userName", "month", "year", "totalIncome", "totalExpense", "balance", "transactionCount"}
    ensures "categories" !in c && "tips" !in c
  {
    assert |"categories"| == 10 && |"tips"| == 4;
    map[
      "userName" := Str(userName),
      "month" := Str(MonthName(month)),
      "year" := Int(year),
      "totalIncome" := Str(AmountText(totalIncome)),
      "totalExpense" := Str(AmountText(totalExpense)),
      "balance" := Str(AmountText(balance)),
      "transactionCount" := Int(transactionCount)]
  }

  /** The monthly report's context before the tip: the figures and the
      categories list. */
  function ReportContext(
    userName: string, month: int, year: int, totalIncome: Amount, totalExpense: Amount,
    balance: Amount, breakdown: map<string, Amount>, order: seq<string>, transactionCount: int)
    : (c: Context)
    requires 1 <= month <= 12
    requires forall i :: 0 <= i < |order| ==> order[i] in breakdown
    ensures c - {"categories"} == ReportFigures(userName, month, year, totalIncome, totalExpense, balance, transactionCount)
    ensures "categories" in c && c["categories"] == Rows(CategoryRows(breakdown, order))
    ensures c.Keys == ReportFigures(userName, month, year, totalIncome, totalExpense, balance, transactionCount).Keys
                      + {"categories"}
  {
    var figures := ReportFigures(userName, month, year, totalIncome, totalExpense, balance, transactionCount);
    assert "categories" !in figures;
    var c := figures["categories" := Rows(CategoryRows(breakdown, order))];
    assert c.Keys == figures.Keys + {"categories"};
    assert c - {"categories"} == figures;
    c
  }

  /** generateMonthlyReport: the figures as text, one categories row per
      breakdown entry, and a tip only when the balance is not zero. */
  function MonthlyReportCall(
    userName: string, month: int, year: int, totalIncome: Amount, totalExpense: Amount,
    balance: Amount, breakdown: map<string, Amount>, order: seq<string>, transactionCount: int)
    : (r: TemplateCall)
    requires 1 <= month <= 12
    requires Enumerates(order, breakdown)
    ensures r.template == MonthlyReport
    ensures "tips" in r.context <==> balance != 0
    ensures balance > 0 ==> r.context["tips"] == Str(PositiveTip)
    ensures balance < 0 ==> r.context["tips"] == Str(NegativeTip)
    ensures r.context - {"tips"} == ReportContext(userName, month, year, totalIncome, totalExpense, balance,
                                                  breakdown, order, transactionCount)
  {
    var context := ReportContext(userName, month, year, totalIncome, totalExpense, balance,
                                 breakdown, order, transactionCount);
    assert "tips" !in context;
    if balance > 0 then
      var tipped := context["tips" := Str(PositiveTip)];
      assert tipped - {"tips"} == context;
      TemplateCall(MonthlyReport, tipped)
    else if balance < 0 then
      var tipped := context["tips" := Str(NegativeTip)];
      assert tipped - {"tips"} == context;
      TemplateCall(MonthlyReport, tipped)
    else
      assert context - {"tips"} == context;
      TemplateCall(MonthlyReport, context)
  }
}

=== FILE: text.dfy ===
/** Strings as sequences of characters: the few operations of java.lang.String
    and JavaScript's String that the model needs, and decimal digit strings. */
module Text {

  /** s.startsWith(p) */
  predicate StartsWith(s: string, p: string) {
    |p| <= |s| && s[..|p|] == p
  }

  /** A character outside the Basic Multilingual Plane, which UTF-16 stores
      as a surrogate pair. */
  predicate Astral(c: char) {
    c as int > 0xFFFF
  }

  /** JavaScript's s.length: the number of UTF-16 code units, two for each
      character outside the Basic Multilingual Plane. */
  function Utf16Length(s: string): (n: nat)
    ensures |s| <= n <= 2 * |s|
    ensures n == |s| <==> forall i :: 0 <= i < |s| ==> !Astral(s[i])
    ensures n == 2 * |s| <==> forall i :: 0 <= i < |s| ==> Astral(s[i])
  {
    if s == [] then 0
    else
      var rest := Utf16Length(s[1..]);
      assert forall i :: 1 <= i < |s| ==> s[1..][i - 1] == s[i];
      (if Astral(s[0]) then 2 else 1) + rest
  }

  /** s.includes(sub) / s.contains(sub) */
  predicate Contains(s: string, sub: string)
    decreases |s|
  {
    if |s| < |sub| then false
    else StartsWith(s, sub) || (|s| > 0 && Contains(s[1..], sub))
  }

  lemma {:induction false} ContainsAt(s: string, sub: string, i: nat)
    requires i + |sub| <= |s| && s[i..i + |sub|] == sub
    ensures Contains(s, sub)
    decreases i
  {
    if i == 0 {
      assert s[..|sub|] == sub;
    } else {
      assert s[1..][i - 1..i - 1 + |sub|] == s[i..i + |sub|];
      ContainsAt(s[1..], sub, i - 1);
    }
  }

  lemma {:induction false} ContainsWitness(s: string, sub: string) returns (i: nat)
    requires Contains(s, sub)
    ensures i + |sub| <= |s| && s[i..i + |sub|] == sub
    decreases |s|
  {
    if StartsWith(s, sub) {
      i := 0;
    } else {
      var j := ContainsWitness(s[1..], sub);
      assert s[1..][j..j + |sub|] == s[j + 1..j + 1 + |sub|];
      i := j + 1;
    }
  }

  /** sub occurs in s at position i. */
  predicate OccursAt(s: string, sub: string, i: nat) {
    i + |sub| <= |s| && s[i..i + |sub|] == sub
  }

  /** A string contains sub iff sub occurs in it at some position. */
  lemma ContainsIff(s: string, sub: string)
    ensures Contains(s, sub) <==> exists i: nat :: OccursAt(s, sub, i)
  {
    if Contains(s, sub) {
      var i := ContainsWitness(s, sub);
      assert OccursAt(s, sub, i);
    }
    forall i: nat | OccursAt(s, sub, i)
      ensures Contains(s, sub)
    {
      ContainsAt(s, sub, i);
    }
  }

  /** A string that contains s also contains every piece of s. */
  lemma {:induction false} ContainsInConcat(a: string, sub: string, b: string)
    ensures Contains(a + sub + b, sub)
  {
    var s := a + sub + b;
    assert s[|a|..|a| + |sub|] == sub;
    ContainsAt(s, sub, |a|);
  }

  /** String.toLowerCase on one character; only the ASCII letters are mapped. */
  function LowerChar(c: char): char {
    if 'A' <= c <= 'Z' then (c as int + 32) as char else c
  }

  function ToLower(s: string): (r: string)
    ensures |r| == |s|
    ensures forall i :: 0 <= i < |s| ==> r[i] == LowerChar(s[i])
  {
    seq(|s|, i requires 0 <= i < |s| => LowerChar(s[i]))
  }

  /** Lowering maps no character onto a digit except that digit itself. */
  lemma LowerCharDigit(c: char, d: char)
    requires IsDigit(d)
    ensures LowerChar(c) == d <==> c == d
  {
  }

  /** Lowering cannot create or destroy an occurrence of a run of digits:
      s contains such a run iff its lower-case form does. */
  lemma LoweringKeepsDigits(s: string, sub: string)
    requires AllDigits(sub)
    ensures Contains(s, sub) <==> Contains(ToLower(s), sub)
  {
    var lower := ToLower(s);
    ContainsIff(s, sub);
    ContainsIff(lower, sub);
    forall i: nat | i + |sub| <= |s|
      ensures OccursAt(s, sub, i) <==> OccursAt(lower, sub, i)
    {
      forall k | 0 <= k < |sub|
        ensures lower[i + k] == sub[k] <==> s[i + k] == sub[k]
      {
        LowerCharDigit(s[i + k], sub[k]);
      }
      assert OccursAt(s, sub, i) <==> forall k :: 0 <= k < |sub| ==> s[i + k] == sub[k];
      assert OccursAt(lower, sub, i) <==> forall k :: 0 <= k < |sub| ==> lower[i + k] == sub[k];
    }
  }

  /** JavaScript's `message || fallback`: an empty message is replaced. */
  function MessageOr(message: string, fallback: string): (r: string)
    ensures message != [] ==> r == message
    ensures message == [] ==> r == fallback
  {
    if message != [] then message else fallback
  }

  predicate IsDigit(c: char) {
    '0' <= c <= '9'
  }

  predicate AllDigits(s: string) {
    forall i :: 0 <= i < |s| ==> IsDigit(s[i])
  }

  /** s.replace(/\D/g, ''): the digits of s, in order. */
  function DigitsOnly(s: string): (r: string)
    ensures AllDigits(r)
    ensures |r| <= |s|
    ensures AllDigits(s) ==> r == s
  {
    if s == [] then []
    else (if IsDigit(s[0]) then [s[0]] else []) + DigitsOnly(s[1..])
  }

  /** s.slice(0, n) */
  function Take(s: string, n: nat): (r: string)
    ensures |r| == if |s| <= n then |s| else n
    ensures r == s[..|r|]
  {
    if |s| <= n then s else s[..n]
  }

  // ---- decimal digit strings ----

  function DigitChar(d: nat): (c: char)
    requires d < 10
    ensures IsDigit(c)
  {
    ('0' as int + d) as char
  }

  function DigitValue(c: char): (d: nat)
    requires IsDigit(c)
    ensures d < 10 && DigitChar(d) == c
  {
    c as int - '0' as int
  }

  /** The decimal text of n, without leading zeros ("0" for zero). */
  function NatText(n: nat): (r: string)
    ensures |r| > 0 && AllDigits(r)
  {
    if n < 10 then [DigitChar(n)] else NatText(n / 10) + [DigitChar(n % 10)]
  }

  /** The number a non-empty string of digits denotes. */
  function ParseDigits(s: string): nat
    requires AllDigits(s)
  {
    if s == [] then 0 else 10 * ParseDigits(s[..|s| - 1]) + DigitValue(s[|s| - 1])
  }

  lemma {:induction false} ParseNatText(n: nat)
    ensures ParseDigits(NatText(n)) == n
  {
    if n >= 10 {
      var t := NatText(n);
      assert t[..|t| - 1] == NatText(n / 10);
      ParseNatText(n / 10);
    }
  }

  /** n as exactly two digits, zero-padded ("dd", "MM"). */
  function Pad2(n: nat): (r: string)
    requires n < 100
    ensures |r| == 2 && AllDigits(r)
  {
    [DigitChar(n / 10), DigitChar(n % 10)]
  }

  /** n as exactly four digits, zero-padded ("yyyy"). */
  function Pad4(n: nat): (r: string)
    requires n < 10000
    ensures |r| == 4 && AllDigits(r)
  {
    Pad2(n / 100) + Pad2(n % 100)
  }

  lemma ParsePad2(n: nat)
    requires n < 100
    ensures ParseDigits(Pad2(n)) == n
  {
    var s := Pad2(n);
    assert s[..1][..0] == [];
    assert s[..1] == [DigitChar(n / 10)];
    assert ParseDigits(s[..1]) == n / 10;
    assert ParseDigits(s) == 10 * (n / 10) + n % 10;
  }

  lemma ParsePad4(n: nat)
    requires n < 10000
    ensures ParseDigits(Pad4(n)) == n
  {
    var s := Pad4(n);
    var hi, lo := Pad2(n / 100), Pad2(n % 100);
    ParseDigitsConcat(hi, lo);
    ParsePad2(n / 100);
    ParsePad2(n % 100);
  }

  /** Reading two digits after a prefix multiplies the prefix's value by 100. */
  lemma ParseDigitsConcat(a: string, b: string)
    requires AllDigits(a) && AllDigits(b) && |b| == 2
    ensures AllDigits(a + b)
    ensures ParseDigits(a + b) == 100 * ParseDigits(a) + ParseDigits(b)
  {
    var s := a + b;
    var a1 := a + [b[0]];
    assert s[..|s| - 1] == a1;
    assert a1[..|a1| - 1] == a;
    assert b[..1][..0] == [];
    assert ParseDigits(b[..1]) == DigitValue(b[0]);
    assert ParseDigits(b) == 10 * DigitValue(b[0]) + DigitValue(b[1]);
    assert ParseDigits(a1) == 10 * ParseDigits(a) + DigitValue(b[0]);
    assert ParseDigits(s) == 10 * ParseDigits(a1) + DigitValue(b[1]);
  }

  // ---- lexicographic order (by code point) ----

  predicate StrLeq(a: string, b: string)
    decreases |a|
  {
    a == [] || (b != [] && (a[0] < b[0] || (a[0] == b[0] && StrLeq(a[1..], b[1..]))))
  }

  lemma {:induction false} StrLeqTotal(a: string, b: string)
    ensures StrLeq(a, b) || StrLeq(b, a)
    decreases |a|
  {
    if a != [] && b != [] && a[0] == b[0] {
      StrLeqTotal(a[1..], b[1..]);
    }
  }

  lemma {:induction false} StrLeqTransitive(a: string, b: string, c: string)
    requires StrLeq(a, b) && StrLeq(b, c)
    ensures StrLeq(a, c)
    decreases |a|
  {
    if a != [] && a[0] == b[0] && b[0] == c[0] {
      StrLeqTransitive(a[1..], b[1..], c[1..]);
    }
  }
}

=== FILE: transaction_controller.dfy ===
/** TransactionController: /api/transactions. Reads are functions of the
    tables; the handlers that write go through the service object. */
module TransactionController {
  import opened Wrappers
  import opened Text
  import opened Money
  import opened Calendar
  import opened Domain
  import opened Http
  import TransactionRepository
  import TransactionService
  import TemplateService
  import PdfService
  import Seqs

  const ListError := "Error retrieving transactions: "
  const GetError := "Transaction not found: "
  const CreateError := "Error creating transaction: "
  const UpdateError := "Error updating transaction: "
  const DeleteError := "Error deleting transaction: "
  const SummaryError := "Error retrieving summary: "

  /** getAllTransactions' choice: the filter query when any filter is given,
      the plain per-user query otherwise. */
  function ListTransactions(
    rows: seq<Transaction>, userId: Uuid, kind: Option<TransactionType>, categoryId: Option<Uuid>,
    startDate: Option<Date>, endDate: Option<Date>): (r: seq<Transaction>)
    ensures kind.Some? || categoryId.Some? || startDate.Some? || endDate.Some? ==>
      r == TransactionRepository.FindByFilters(rows, userId, kind, categoryId, startDate, endDate)
    ensures kind.None? && categoryId.None? && startDate.None? && endDate.None? ==>
      r == TransactionRepository.FindByUserIdOrderByDateDesc(rows, userId)
  {
    if kind.Some? || categoryId.Some? || startDate.Some? || endDate.Some? then
      TransactionRepository.FindByFilters(rows, userId, kind, categoryId, startDate, endDate)
    else
      TransactionRepository.FindByUserIdOrderByDateDesc(rows, userId)
  }

  /** The dispatch never changes the answer: the filter query with no filter
      given is the plain query. */
  lemma ListTransactionsIsFilterQuery(
    rows: seq<Transaction>, userId: Uuid, kind: Option<TransactionType>, categoryId: Option<Uuid>,
    startDate: Option<Date>, endDate: Option<Date>)
    ensures ListTransactions(rows, userId, kind, categoryId, startDate, endDate)
         == TransactionRepository.FindByFilters(rows, userId, kind, categoryId, startDate, endDate)
  {
    TransactionRepository.FindByFiltersUnfiltered(rows, userId);
  }

  /** GET /api/transactions: 200 with the list, or 500. */
  function GetAllTransactions(
    rows: seq<Transaction>, identify: Identify, header: Option<string>, kind: Option<TransactionType>,
    categoryId: Option<Uuid>, startDate: Option<Date>, endDate: Option<Date>)
    : (r: Response<seq<Transaction>>)
    ensures r.status == OK <==> UserIdFromHeader(identify, header).Ok?
    ensures r.status == OK ==> r.body == Success("Transactions retrieved successfully",
      Some(ListTransactions(rows, UserIdFromHeader(identify, header).value, kind, categoryId, startDate, endDate)))
    ensures r.status != OK ==>
      r == Response(INTERNAL_SERVER_ERROR, Error(ListError + UserIdFromHeader(identify, header).error))
  {
    var outcome := Then(UserIdFromHeader(identify, header),
      (userId: Uuid) => Ok(ListTransactions(rows, userId, kind, categoryId, startDate, endDate)));
    Answer(outcome, OK, "Transactions retrieved successfully", INTERNAL_SERVER_ERROR, ListError)
  }

  /** GET /api/transactions/{id}: 200 with the caller's transaction, else 404. */
  function GetTransactionById(rows: seq<Transaction>, identify: Identify, header: Option<string>, id: Uuid)
    : (r: Response<Transaction>)
    ensures r.status == OK || r.status == NOT_FOUND
    ensures r.status == OK <==>
      UserIdFromHeader(identify, header).Ok?
      && TransactionService.GetTransactionById(rows, id, UserIdFromHeader(identify, header).value).Ok?
    ensures r.status == OK ==>
      && r.body.Success? && r.body.data.Some?
      && r.body.data.value in rows && r.body.data.value.id == id
      && r.body.data.value.userId == UserIdFromHeader(identify, header).value
    ensures r.status == OK ==> r.body == Success("Transaction retrieved successfully",
      Some(TransactionService.GetTransactionById(rows, id, UserIdFromHeader(identify, header).value).value))
    ensures r.status == NOT_FOUND ==> r.body.Error? && StartsWith(r.body.message, GetError)
    ensures UserIdFromHeader(identify, header).Err? ==>
      r == Response(NOT_FOUND, Error(GetError + UserIdFromHeader(identify, header).error))
    ensures (UserIdFromHeader(identify, header).Ok?
      && TransactionService.GetTransactionById(rows, id, UserIdFromHeader(identify, header).value).Err?) ==>
      r == Response(NOT_FOUND, Error(GetError
        + TransactionService.GetTransactionById(rows, id, UserIdFromHeader(identify, header).value).error))
  {
    var outcome := Then(UserIdFromHeader(identify, header),
      (userId: Uuid) => TransactionService.GetTransactionById(rows, id, userId));
    var r := Answer(outcome, OK, "Transaction retrieved successfully", NOT_FOUND, GetError);
    assert r.status == NOT_FOUND ==> r.body.message[..|GetError|] == GetError;
    r
  }

  /** GET /api/transactions/summary: 200 with the summary, or 500. */
  function GetTransactionSummary(
    rows: seq<Transaction>, categories: seq<Category>, identify: Identify, header: Option<string>,
    startDate: Option<Date>, endDate: Option<Date>)
    : (r: Response<TransactionSummary>)
    ensures r.status == OK <==> UserIdFromHeader(identify, header).Ok?
    ensures r.status == OK ==> r.body == Success("Summary retrieved successfully", Some(
      TransactionService.SummaryOf(
        TransactionService.SummaryRows(rows, UserIdFromHeader(identify, header).value, startDate, endDate),
        categories)))
    ensures r.status != OK ==>
      r == Response(INTERNAL_SERVER_ERROR, Error(SummaryError + UserIdFromHeader(identify, header).error))
  {
    var outcome := Then(UserIdFromHeader(identify, header),
      (userId: Uuid) => Ok(TransactionService.SummaryOf(
        TransactionService.SummaryRows(rows, userId, startDate, endDate), categories)));
    Answer(outcome, OK, "Summary retrieved successfully", INTERNAL_SERVER_ERROR, SummaryError)
  }

  /** The rows of the PDF download: the filter query, on dates alone, as soon
      as either date is given. */
  function PdfRows(rows: seq<Transaction>, userId: Uuid, startDate: Option<Date>, endDate: Option<Date>)
    : (r: seq<Transaction>)
    ensures r == TransactionRepository.FindByFilters(rows, userId, None, None, startDate, endDate)
  {
    TransactionRepository.FindByFiltersUnfiltered(rows, userId);
    if startDate.Some? || endDate.Some? then
      TransactionRepository.FindByFilters(rows, userId, None, None, startDate, endDate)
    else
      TransactionRepository.FindByUserIdOrderByDateDesc(rows, userId)
  }

  /** With one date only, the report is filtered by it while the summary of the
      same request would cover every row of the user. */
  lemma OneDateFiltersReportNotSummary(rows: seq<Transaction>, userId: Uuid, startDate: Date)
    ensures PdfRows(rows, userId, Some(startDate), None)
         == TransactionRepository.FindByFilters(rows, userId, None, None, Some(startDate), None)
    ensures TransactionService.SummaryRows(rows, userId, Some(startDate), None)
         == TransactionRepository.FindByUserIdOrderByDateDesc(rows, userId)
  {
  }

  const FilenamePrefix := "expense-tracker-report-"

  /** The attachment's name: the prefix, today as yyyy-MM-dd, ".pdf". */
  function ReportFilename(today: Date): (r: string)
    ensures |r| == 37 && r[..23] == FilenamePrefix && r[33..] == ".pdf"
    ensures ParseIsoText(r[23..33]) == Some(today)
  {
    var r := FilenamePrefix + IsoText(today) + ".pdf";
    assert r[23..33] == IsoText(today);
    ParseIsoTextRoundTrip(today);
    r
  }

  /** The success message of a created transaction. */
  function CreatedCall(t: Transaction): TemplateService.TemplateCall {
    TemplateService.TransactionSuccessCall(TypeName(t.kind), AmountText(t.amount), t.description)
  }

  /** The success message of an updated transaction. */
  function UpdatedCall(t: Transaction): TemplateService.TemplateCall {
    TemplateService.TransactionUpdateCall(TypeName(t.kind), AmountText(t.amount))
  }

  /** The answer once a transaction is saved: the success message, with the
      id and the threshold advice as data; a failure of either rendering
      answers 400 with the handler's prefix. */
  function SavedResponse(
    engine: TemplateService.Engine, successCall: TemplateService.TemplateCall, t: Transaction,
    okStatus: int, prefix: string)
    : (r: Response<map<string, string>>)
    requires okStatus != BAD_REQUEST
    ensures r.status == okStatus || r.status == BAD_REQUEST
    ensures r.status == okStatus <==>
      && TemplateService.RenderTemplate(engine, successCall).Ok?
      && TemplateService.RenderTemplate(engine, TemplateService.ExpenseThresholdCall(TypeName(t.kind), t.amount)).Ok?
    ensures r.status == okStatus ==>
      && r.body.Success? && r.body.data.Some?
      && Ok(r.body.message) == TemplateService.RenderTemplate(engine, successCall)
      && r.body.data.value.Keys == {"id", "adviceMessage"}
      && r.body.data.value["id"] == t.id
      && Ok(r.body.data.value["adviceMessage"])
         == TemplateService.RenderTemplate(engine, TemplateService.ExpenseThresholdCall(TypeName(t.kind), t.amount))
    ensures r.status == BAD_REQUEST ==>
      && r.body.Error?
      && StartsWith(r.body.message, prefix + TemplateService.RenderErrorPrefix)
  {
    var successMessage := TemplateService.RenderTemplate(engine, successCall);
    var adviceMessage := TemplateService.RenderTemplate(engine,
      TemplateService.ExpenseThresholdCall(TypeName(t.kind), t.amount));
    if successMessage.Err? then
      TemplateService.RenderErrorIsPrefixed(engine, successCall);
      assert successMessage.error[..|TemplateService.RenderErrorPrefix|] == TemplateService.RenderErrorPrefix;
      Response(BAD_REQUEST, Error(prefix + successMessage.error))
    else if adviceMessage.Err? then
      TemplateService.RenderErrorIsPrefixed(engine, TemplateService.ExpenseThresholdCall(TypeName(t.kind), t.amount));
      assert adviceMessage.error[..|TemplateService.RenderErrorPrefix|] == TemplateService.RenderErrorPrefix;
      Response(BAD_REQUEST, Error(prefix + adviceMessage.error))
    else
      Response(okStatus, Success(successMessage.value,
        Some(map["id" := t.id, "adviceMessage" := adviceMessage.value])))
  }

  /** The answer once a transaction is deleted: 200 with the rendered delete
      message and no data, or 400 when the rendering fails. */
  function DeletedResponse(engine: TemplateService.Engine): (r: Response<()>)
    ensures r.status == OK <==> TemplateService.RenderTemplate(engine, TemplateService.TransactionDeleteCall()).Ok?
    ensures r.status == OK ==>
      && r.body.Success? && r.body.data.None?
      && Ok(r.body.message) == TemplateService.RenderTemplate(engine, TemplateService.TransactionDeleteCall())
    ensures r.status != OK ==>
      && r.status == BAD_REQUEST && r.body.Error?
      && StartsWith(r.body.message, DeleteError + TemplateService.RenderErrorPrefix)
  {
    var message := TemplateService.RenderTemplate(engine, TemplateService.TransactionDeleteCall());
    if message.Ok? then
      Response(OK, Success(message.value, None))
    else
      TemplateService.RenderErrorIsPrefixed(engine, TemplateService.TransactionDeleteCall());
      assert message.error[..|TemplateService.RenderErrorPrefix|] == TemplateService.RenderErrorPrefix;
      Response(BAD_REQUEST, Error(DeleteError + message.error))
  }

  /** The headers of the download. */
  datatype PdfHeaders = PdfHeaders(contentType: string, filename: string, contentLength: int)

  /** The download's answer: the bytes with their headers, or a 500 with no body. */
  datatype PdfResponse = PdfResponse(status: int, body: Option<seq<bv8>>, headers: Option<PdfHeaders>)

  /** JwtConfig.verifyToken(token).getClaim("email").asString(): the email,
      None when the claim is absent, or the exception's message. */
  type EmailOf = string -> Result<Option<string>>

  /** The iText writer: the bytes of a report. */
  type Encode = PdfService.Report -> seq<bv8>

  class TransactionController {
    const service: TransactionService.TransactionService
    const engine: TemplateService.Engine
    const identify: Identify

    constructor (service: TransactionService.TransactionService, engine: TemplateService.Engine, identify: Identify)
      ensures this.service == service && this.engine == engine && this.identify == identify
    {
      this.service := service;
      this.engine := engine;
      this.identify := identify;
    }

    /** POST /api/transactions: 201 with the new id and the advice message.
        The row is stored before the messages are rendered, so a rendering
        failure answers 400 with the row kept. */
    method CreateTransaction(header: Option<string>, request: TransactionRequest, newId: Uuid, today: Date)
      returns (r: Response<map<string, string>>)
      requires service.Valid()
      requires forall x :: x in service.rows ==> x.id != newId
      modifies service
      ensures service.Valid()
      ensures UserIdFromHeader(identify, header).Err? ==>
        r == Response(BAD_REQUEST, Error(CreateError + UserIdFromHeader(identify, header).error))
        && service.rows == old(service.rows)
      ensures UserIdFromHeader(identify, header).Ok? ==>
        && |service.rows| == |old(service.rows)| + 1
        && service.rows[..|old(service.rows)|] == old(service.rows)
        && (var t := service.rows[|old(service.rows)|];
            && t == Transaction(newId, UserIdFromHeader(identify, header).value, request.categoryId, request.amount,
                                request.kind, request.description,
                                Some(if request.date.Some? then request.date.value else today))
            && r == SavedResponse(engine, CreatedCall(t), t, CREATED, CreateError))
    {
      var userId := UserIdFromHeader(identify, header);
      if userId.Err? {
        return Response(BAD_REQUEST, Error(CreateError + userId.error));
      }
      var transaction := service.CreateTransaction(request, userId.value, newId, today);
      r := SavedResponse(engine, CreatedCall(transaction), transaction, CREATED, CreateError);
    }

    /** PUT /api/transactions/{id}: 200 with the id and the advice message. */
    method UpdateTransaction(header: Option<string>, id: Uuid, request: TransactionRequest)
      returns (r: Response<map<string, string>>)
      requires service.Valid()
      modifies service
      ensures service.Valid()
      ensures UserIdFromHeader(identify, header).Err? ==>
        r == Response(BAD_REQUEST, Error(UpdateError + UserIdFromHeader(identify, header).error))
        && service.rows == old(service.rows)
      ensures UserIdFromHeader(identify, header).Ok? ==>
        var found := TransactionService.GetTransactionById(old(service.rows), id, UserIdFromHeader(identify, header).value);
        && (found.Err? ==> r == Response(BAD_REQUEST, Error(UpdateError + found.error)) && service.rows == old(service.rows))
        && (found.Ok? ==>
              var t := TransactionService.Overwrite(found.value, request);
              && service.rows == Seqs.ReplaceById(old(service.rows), t, TransactionIdOf)
              && r == SavedResponse(engine, UpdatedCall(t), t, OK, UpdateError))
    {
      var userId := UserIdFromHeader(identify, header);
      if userId.Err? {
        return Response(BAD_REQUEST, Error(UpdateError + userId.error));
      }
      var updated := service.UpdateTransaction(id, request, userId.value);
      if updated.Err? {
        return Response(BAD_REQUEST, Error(UpdateError + updated.error));
      }
      r := SavedResponse(engine, UpdatedCall(updated.value), updated.value, OK, UpdateError);
    }

    /** DELETE /api/transactions/{id}: 200 with the rendered message and no data. */
    method DeleteTransaction(header: Option<string>, id: Uuid) returns (r: Response<()>)
      requires service.Valid()
      modifies service
      ensures service.Valid()
      ensures r.status == OK || r.status == BAD_REQUEST
      ensures UserIdFromHeader(identify, header).Err? ==>
        r == Response(BAD_REQUEST, Error(DeleteError + UserIdFromHeader(identify, header).error))
        && service.rows == old(service.rows)
      ensures UserIdFromHeader(identify, header).Ok? ==>
        var found := TransactionService.GetTransactionById(old(service.rows), id, UserIdFromHeader(identify, header).value);
        && (found.Err? ==> r == Response(BAD_REQUEST, Error(DeleteError + found.error)) && service.rows == old(service.rows))
        && (found.Ok? ==>
              && service.rows == Seqs.RemoveById(old(service.rows), id, TransactionIdOf)
              && r == DeletedResponse(engine))
    {
      var userId := UserIdFromHeader(identify, header);
      if userId.Err? {
        return Response(BAD_REQUEST, Error(DeleteError + userId.error));
      }
      var deleted := service.DeleteTransaction(id, userId.value);
      if deleted.Err? {
        return Response(BAD_REQUEST, Error(DeleteError + deleted.error));
      }
      r := DeletedResponse(engine);
    }

    /** GET /api/transactions/download/pdf: the report's bytes with their
        headers, or a 500 with no body. */
    method DownloadPdfReport(
      header: Option<string>, startDate: Option<Date>, endDate: Option<Date>,
      emailOf: EmailOf, encode: Encode, today: Date, nullDateMessage: string)
      returns (r: PdfResponse)
      ensures r.status == OK || r.status == INTERNAL_SERVER_ERROR
      ensures r.status == INTERNAL_SERVER_ERROR ==> r.body.None? && r.headers.None?
      ensures r.status == OK <==>
        && UserIdFromHeader(identify, header).Ok?
        && emailOf(ExtractBearerToken(header).value).Ok?
        && PdfService.AllDated(PdfRows(service.rows, UserIdFromHeader(identify, header).value, startDate, endDate))
      ensures r.status == OK ==>
        r.body == Some(encode(PdfService.ReportFor(
          emailOf(ExtractBearerToken(header).value).value,
          PdfRows(service.rows, UserIdFromHeader(identify, header).value, startDate, endDate),
          startDate, endDate, today)))
      ensures r.status == OK ==>
        && r.body.Some? && r.headers.Some?
        && r.headers.value.contentType == "application/pdf"
        && r.headers.value.filename == ReportFilename(today)
        && r.headers.value.contentLength == |r.body.value|
    {
      var userId := UserIdFromHeader(identify, header);
      if userId.Err? {
        return PdfResponse(INTERNAL_SERVER_ERROR, None, None);
      }
      var token := ExtractBearerToken(header).value;
      var userEmail := emailOf(token);
      if userEmail.Err? {
        return PdfResponse(INTERNAL_SERVER_ERROR, None, None);
      }
      var transactions := PdfRows(service.rows, userId.value, startDate, endDate);
      var report := PdfService.GenerateTransactionReport(
        userEmail.value, transactions, startDate, endDate, today, nullDateMessage);
      if report.Err? {
        return PdfResponse(INTERNAL_SERVER_ERROR, None, None);
      }
      var pdfBytes := encode(report.value);
      var filename := ReportFilename(today);
      var headers := PdfHeaders("application/pdf", filename, |pdfBytes|);
      r := PdfResponse(OK, Some(pdfBytes), Some(headers));
    }
  }
}

=== FILE: transaction_repository.dfy ===
/** TransactionRepository: the derived queries and the JPQL filter query, over
    the transactions table given as its sequence of rows. */
module TransactionRepository {
  import opened Wrappers
  import opened Calendar
  import opened Domain
  import opened Seqs

  /** ORDER BY t.date DESC: a may be listed before b. A NULL date sorts first,
      as PostgreSQL orders NULLs in a descending sort. */
  predicate LaterOrSame(a: Transaction, b: Transaction) {
    match (a.date, b.date)
    case (None, _) => true
    case (Some(_), None) => false
    case (Some(x), Some(y)) => DateLeq(y, x)
  }

  lemma LaterOrSameIsTotalPreorder()
    ensures TotalPreorder(LaterOrSame)
  {
  }

  /** Dated rows appear latest first. */
  ghost predicate DateDescending(s: seq<Transaction>) {
    Sorted(s, LaterOrSame)
  }

  /** The ordered answer to a query whose WHERE clause is p. */
  function OrderedByDateDesc(rows: seq<Transaction>, p: Transaction -> bool): (r: seq<Transaction>)
    ensures forall t :: t in r ==> t in rows && p(t)
    ensures forall t :: t in rows && p(t) ==> t in r
    ensures multiset(r) <= multiset(rows)
    ensures DateDescending(r)
  {
    var selected := Filter(rows, p);
    LaterOrSameIsTotalPreorder();
    SortSorted(selected, LaterOrSame);
    Sort(selected, LaterOrSame)
  }

  /** findById */
  function FindById(rows: seq<Transaction>, id: Uuid): (r: Option<Transaction>)
    ensures r.Some? ==> r.value in rows && r.value.id == id
    ensures r.None? ==> forall t :: t in rows ==> t.id != id
  {
    if rows == [] then None
    else if rows[0].id == id then Some(rows[0])
    else FindById(rows[1..], id)
  }

  /** findByUserIdOrderByDateDesc */
  function FindByUserIdOrderByDateDesc(rows: seq<Transaction>, userId: Uuid): (r: seq<Transaction>)
    ensures forall t :: t in r ==> t in rows && t.userId == userId
    ensures forall t :: t in rows && t.userId == userId ==> t in r
    ensures multiset(r) <= multiset(rows)
    ensures DateDescending(r)
  {
    OrderedByDateDesc(rows, (t: Transaction) => t.userId == userId)
  }

  /** date BETWEEN startDate AND endDate: both bounds inclusive; a NULL date
      satisfies no comparison. */
  predicate InRange(t: Transaction, startDate: Date, endDate: Date) {
    t.date.Some? && DateLeq(startDate, t.date.value) && DateLeq(t.date.value, endDate)
  }

  /** findByUserIdAndDateBetweenOrderByDateDesc */
  function FindByUserIdAndDateBetweenOrderByDateDesc(
    rows: seq<Transaction>, userId: Uuid, startDate: Date, endDate: Date): (r: seq<Transaction>)
    ensures forall t :: t in r ==> t in rows && t.userId == userId && InRange(t, startDate, endDate)
    ensures forall t :: t in rows && t.userId == userId && InRange(t, startDate, endDate) ==> t in r
    ensures multiset(r) <= multiset(rows)
    ensures DateDescending(r)
  {
    OrderedByDateDesc(rows, (t: Transaction) => t.userId == userId && InRange(t, startDate, endDate))
  }

  /** findByUserIdAndTypeOrderByDateDesc */
  function FindByUserIdAndTypeOrderByDateDesc(
    rows: seq<Transaction>, userId: Uuid, kind: TransactionType): (r: seq<Transaction>)
    ensures forall t :: t in r ==> t in rows && t.userId == userId && t.kind == kind
    ensures forall t :: t in rows && t.userId == userId && t.kind == kind ==> t in r
    ensures multiset(r) <= multiset(rows)
    ensures DateDescending(r)
  {
    OrderedByDateDesc(rows, (t: Transaction) => t.userId == userId && t.kind == kind)
  }

  /** The optional conditions of the filter query: "(:p IS NULL OR ...)". */
  predicate MatchesOptional(
    t: Transaction, kind: Option<TransactionType>, categoryId: Option<Uuid>,
    startDate: Option<Date>, endDate: Option<Date>)
  {
    && (kind.None? || t.kind == kind.value)
    && (categoryId.None? || t.categoryId == Some(categoryId.value))
    && (startDate.None? || (t.date.Some? && DateLeq(startDate.value, t.date.value)))
    && (endDate.None? || (t.date.Some? && DateLeq(t.date.value, endDate.value)))
  }

  /** findByFilters: the caller's rows that meet every filter given; a NULL
      filter constrains nothing. */
  function FindByFilters(
    rows: seq<Transaction>, userId: Uuid, kind: Option<TransactionType>, categoryId: Option<Uuid>,
    startDate: Option<Date>, endDate: Option<Date>): (r: seq<Transaction>)
    ensures forall t :: t in r ==> (
      && t in rows && t.userId == userId
      && (kind.Some? ==> t.kind == kind.value)
      && (categoryId.Some? ==> t.categoryId == Some(categoryId.value))
      && (startDate.Some? ==> t.date.Some? && DateLeq(startDate.value, t.date.value))
      && (endDate.Some? ==> t.date.Some? && DateLeq(t.date.value, endDate.value)))
    ensures forall t :: t in rows ==> (
      (&& t.userId == userId
       && (kind.None? || t.kind == kind.value)
       && (categoryId.None? || t.categoryId == Some(categoryId.value))
       && (startDate.None? || (t.date.Some? && DateLeq(startDate.value, t.date.value)))
       && (endDate.None? || (t.date.Some? && DateLeq(t.date.value, endDate.value))))
      ==> t in r)
    ensures multiset(r) <= multiset(rows)
    ensures DateDescending(r)
  {
    OrderedByDateDesc(rows, (t: Transaction) =>
      t.userId == userId && MatchesOptional(t, kind, categoryId, startDate, endDate))
  }

  /** With every filter NULL the filter query is the plain per-user query. */
  lemma FindByFiltersUnfiltered(rows: seq<Transaction>, userId: Uuid)
    ensures FindByFilters(rows, userId, None, None, None, None)
         == FindByUserIdOrderByDateDesc(rows, userId)
  {
    FilterAgree(rows,
      (t: Transaction) => t.userId == userId && MatchesOptional(t, None, None, None, None),
      (t: Transaction) => t.userId == userId);
  }

  /** With only the two dates given the filter query is the BETWEEN query. */
  lemma FindByFiltersDatesOnly(rows: seq<Transaction>, userId: Uuid, startDate: Date, endDate: Date)
    ensures FindByFilters(rows, userId, None, None, Some(startDate), Some(endDate))
         == FindByUserIdAndDateBetweenOrderByDateDesc(rows, userId, startDate, endDate)
  {
    FilterAgree(rows,
      (t: Transaction) => t.userId == userId && MatchesOptional(t, None, None, Some(startDate), Some(endDate)),
      (t: Transaction) => t.userId == userId && InRange(t, startDate, endDate));
  }

  /** The filter query's answer is the per-user answer with the rows that miss
      a filter struck out, in the same order. */
  lemma FindByFiltersNarrows(
    rows: seq<Transaction>, userId: Uuid, kind: Option<TransactionType>, categoryId: Option<Uuid>,
    startDate: Option<Date>, endDate: Option<Date>)
    ensures FindByFilters(rows, userId, kind, categoryId, startDate, endDate)
         == Filter(FindByUserIdOrderByDateDesc(rows, userId),
                   (t: Transaction) => MatchesOptional(t, kind, categoryId, startDate, endDate))
  {
    var owned := (t: Transaction) => t.userId == userId;
    var rest := (t: Transaction) => MatchesOptional(t, kind, categoryId, startDate, endDate);
    var both := (t: Transaction) => t.userId == userId && MatchesOptional(t, kind, categoryId, startDate, endDate);
    LaterOrSameIsTotalPreorder();
    FilterSort(Filter(rows, owned), LaterOrSame, rest);
    FilterFilter(rows, owned, rest, both);
  }
}

=== FILE: transaction_service.dfy ===
/** TransactionService: owner-checked lookup, create, update and delete of a
    user's transactions, and the summary of a user's transactions. */
module TransactionService {
  import opened Wrappers
  import opened Money
  import opened Calendar
  import opened Domain
  import opened Seqs
  import TransactionRepository
  import CategoryRepository
  import CategoryService

  /** getTransactionById: the stored transaction, if it exists and is the caller's. */
  function GetTransactionById(rows: seq<Transaction>, id: Uuid, userId: Uuid): (r: Result<Transaction>)
    ensures r == Err("Transaction not found") <==> (forall t :: t in rows ==> t.id != id)
    ensures r == Err("Unauthorized access to transaction")
        <==> (exists t :: t in rows && t.id == id) && TransactionRepository.FindById(rows, id).value.userId != userId
    ensures r.Ok? ==> r.value in rows && r.value.id == id && r.value.userId == userId
    ensures UniqueTransactionIds(rows) && (exists t :: t in rows && t.id == id && t.userId == userId) ==> r.Ok?
  {
    match TransactionRepository.FindById(rows, id)
    case None => Err("Transaction not found")
    case Some(t) =>
      if t.userId != userId then
        Err("Unauthorized access to transaction")
      else
        Ok(t)
  }

  /** The one row with a given id, when ids are unique. */
  lemma UniqueIdLookup(rows: seq<Transaction>, t: Transaction)
    requires UniqueTransactionIds(rows) && t in rows
    ensures TransactionRepository.FindById(rows, t.id) == Some(t)
  {
    var f := TransactionRepository.FindById(rows, t.id).value;
    var i :| 0 <= i < |rows| && rows[i] == t;
    var j :| 0 <= j < |rows| && rows[j] == f;
    if i < j { assert rows[i].id != rows[j].id; }
    if j < i { assert rows[j].id != rows[i].id; }
  }

  lemma RemoveKeepsUnique(rows: seq<Transaction>, id: Uuid)
    requires UniqueTransactionIds(rows)
    ensures UniqueTransactionIds(RemoveById(rows, id, TransactionIdOf))
  {
    var distinct := (a: Transaction, b: Transaction) => a.id != b.id;
    assert Pairwise(rows, distinct);
    FilterPairwise(rows, IdIsNot(TransactionIdOf, id), distinct);
    var f := RemoveById(rows, id, TransactionIdOf);
    assert forall i, j :: 0 <= i < j < |f| ==> distinct(f[i], f[j]);
  }

  /** The request's fields written over a stored transaction; id and owner stay. */
  function Overwrite(t: Transaction, request: TransactionRequest): (r: Transaction)
    ensures r.id == t.id && r.userId == t.userId
    ensures r.categoryId == request.categoryId && r.amount == request.amount && r.kind == request.kind
    ensures r.description == request.description && r.date == request.date
  {
    t.(categoryId := request.categoryId, amount := request.amount, kind := request.kind,
       description := request.description, date := request.date)
  }

  // The summary figures, each defined on a list by its last element, the order
  // in which the summary loop consumes it.

  function AmountTotal(ts: seq<Transaction>): Amount {
    if ts == [] then 0 else AmountTotal(ts[..|ts| - 1]) + ts[|ts| - 1].amount
  }

  function IncomeTotal(ts: seq<Transaction>): Amount {
    if ts == [] then 0
    else IncomeTotal(ts[..|ts| - 1]) + (if ts[|ts| - 1].kind == INCOME then ts[|ts| - 1].amount else 0)
  }

  /** Everything that is not INCOME counts as expense. */
  function ExpenseTotal(ts: seq<Transaction>): Amount {
    if ts == [] then 0
    else ExpenseTotal(ts[..|ts| - 1]) + (if ts[|ts| - 1].kind == INCOME then 0 else ts[|ts| - 1].amount)
  }

  lemma {:induction false} IncomePlusExpense(ts: seq<Transaction>)
    ensures IncomeTotal(ts) + ExpenseTotal(ts) == AmountTotal(ts)
  {
    if ts != [] {
      IncomePlusExpense(ts[..|ts| - 1]);
    }
  }

  lemma {:induction false} AmountTotalAppend(s: seq<Transaction>, t: seq<Transaction>)
    ensures AmountTotal(s + t) == AmountTotal(s) + AmountTotal(t)
    decreases |t|
  {
    if t != [] {
      assert (s + t)[..|s + t| - 1] == s + t[..|t| - 1];
      AmountTotalAppend(s, t[..|t| - 1]);
    } else {
      assert s + t == s;
    }
  }

  /** The total of the rows meeting p, after one more row. */
  lemma SelectedTotalAppend(s: seq<Transaction>, x: Transaction, p: Transaction -> bool)
    ensures AmountTotal(Filter(s + [x], p)) == AmountTotal(Filter(s, p)) + (if p(x) then x.amount else 0)
  {
    FilterAppend(s, x, p);
    AmountTotalAppend(Filter(s, p), if p(x) then [x] else []);
    assert AmountTotal([x]) == x.amount by {
      assert [x][..0] == [];
    }
  }

  predicate IsIncome(t: Transaction) {
    t.kind == INCOME
  }

  predicate IsExpense(t: Transaction) {
    t.kind == EXPENSE
  }

  /** The income total is the total of the INCOME rows alone. */
  lemma {:induction false} IncomeTotalIsIncomeRows(ts: seq<Transaction>)
    ensures IncomeTotal(ts) == AmountTotal(Filter(ts, IsIncome))
  {
    if ts != [] {
      var init, last := ts[..|ts| - 1], ts[|ts| - 1];
      assert ts == init + [last];
      IncomeTotalIsIncomeRows(init);
      SelectedTotalAppend(init, last, IsIncome);
    }
  }

  /** The expense total is the total of the EXPENSE rows alone: the two types
      are all there is, so "not INCOME" is EXPENSE. */
  lemma {:induction false} ExpenseTotalIsExpenseRows(ts: seq<Transaction>)
    ensures ExpenseTotal(ts) == AmountTotal(Filter(ts, IsExpense))
  {
    if ts != [] {
      var init, last := ts[..|ts| - 1], ts[|ts| - 1];
      assert ts == init + [last];
      ExpenseTotalIsExpenseRows(init);
      SelectedTotalAppend(init, last, IsExpense);
    }
  }

  /** The name of the category a transaction refers to, when it has a category
      id and the categories table holds that id (of any user). */
  function CategoryName(t: Transaction, categories: seq<Category>): (r: Option<string>)
    ensures r.Some? <==> t.categoryId.Some? && exists c :: c in categories && c.id == t.categoryId.value
    ensures r.Some? ==> exists c :: c in categories && c.id == t.categoryId.value && c.name == r.value
  {
    if t.categoryId.None? then None
    else
      match CategoryRepository.FindById(categories, t.categoryId.value)
      case None => None
      case Some(c) => Some(c.name)
  }

  /** Grouping with a running sum: each key that keyOf gives some row, mapped
      to the sum of the amounts of those rows; rows keyOf gives no key to are
      skipped. */
  function GroupTotals(ts: seq<Transaction>, keyOf: Transaction -> Option<string>): (r: map<string, Amount>)
    ensures forall key {:trigger HasRowUnder(ts, keyOf, key)} :: key in r ==> HasRowUnder(ts, keyOf, key)
  {
    if ts == [] then map[]
    else
      var m := GroupTotals(ts[..|ts| - 1], keyOf);
      var t := ts[|ts| - 1];
      var r := match keyOf(t)
        case None => m
        case Some(key) => m[key := (if key in m then m[key] else 0) + t.amount];
      assert forall key {:trigger HasRowUnder(ts, keyOf, key)} :: key in r ==> HasRowUnder(ts, keyOf, key) by {
        forall key | key in r ensures HasRowUnder(ts, keyOf, key) {
          if key in m {
            assert HasRowUnder(ts[..|ts| - 1], keyOf, key);
            var u :| u in ts[..|ts| - 1] && keyOf(u) == Some(key);
            assert u in ts;
          } else {
            assert t in ts;
          }
        }
      }
      r
  }

  /** Some row of ts is filed under key. */
  predicate HasRowUnder(ts: seq<Transaction>, keyOf: Transaction -> Option<string>, key: string) {
    exists t :: t in ts && keyOf(t) == Some(key)
  }

  /** The selection of the rows filed under one key. */
  function FiledUnder(keyOf: Transaction -> Option<string>, key: string): Transaction -> bool {
    (t: Transaction) => keyOf(t) == Some(key)
  }

  /** The groups are exactly the keys some row is filed under. */
  lemma {:induction false} GroupTotalsKeys(ts: seq<Transaction>, keyOf: Transaction -> Option<string>, key: string)
    ensures key in GroupTotals(ts, keyOf) <==> exists t :: t in ts && keyOf(t) == Some(key)
  {
    if ts != [] {
      var init, last := ts[..|ts| - 1], ts[|ts| - 1];
      assert ts == init + [last];
      GroupTotalsKeys(init, keyOf, key);
      assert key in GroupTotals(ts, keyOf) <==> key in GroupTotals(init, keyOf) || keyOf(last) == Some(key);
      if key in GroupTotals(init, keyOf) {
        var t :| t in init && keyOf(t) == Some(key);
        assert t in ts;
      }
      if exists t :: t in ts && keyOf(t) == Some(key) {
        var t :| t in ts && keyOf(t) == Some(key);
        if t != last {
          var k :| 0 <= k < |ts| && ts[k] == t;
          assert init[k] == t;
        }
      }
    }
  }

  /** Each group's value is the total of the rows filed under its key. */
  lemma {:induction false} GroupTotalsValue(ts: seq<Transaction>, keyOf: Transaction -> Option<string>, key: string)
    requires key in GroupTotals(ts, keyOf)
    ensures GroupTotals(ts, keyOf)[key] == AmountTotal(Filter(ts, FiledUnder(keyOf, key)))
  {
    var p := FiledUnder(keyOf, key);
    var init, last := ts[..|ts| - 1], ts[|ts| - 1];
    assert ts == init + [last];
    SelectedTotalAppend(init, last, p);
    if key in GroupTotals(init, keyOf) {
      GroupTotalsValue(init, keyOf, key);
    } else {
      GroupTotalsKeys(init, keyOf, key);
      if Filter(init, p) != [] {
        assert false;
      }
    }
  }

  /** The key of the summary's breakdown: the category's name. */
  function NameOf(categories: seq<Category>): Transaction -> Option<string> {
    (t: Transaction) => CategoryName(t, categories)
  }

  /** The categoryBreakdown map: each resolved category name to the sum of the
      amounts, income and expense alike, filed under it. */
  function Breakdown(ts: seq<Transaction>, categories: seq<Category>): (r: map<string, Amount>)
    ensures forall name {:trigger FiledUnder(NameOf(categories), name)} :: name in r ==>
      r[name] == AmountTotal(Filter(ts, FiledUnder(NameOf(categories), name)))
  {
    var r := GroupTotals(ts, NameOf(categories));
    assert forall name :: name in r ==> r[name] == AmountTotal(Filter(ts, FiledUnder(NameOf(categories), name))) by {
      forall name | name in r ensures r[name] == AmountTotal(Filter(ts, FiledUnder(NameOf(categories), name))) {
        GroupTotalsValue(ts, NameOf(categories), name);
      }
    }
    r
  }

  /** One more row adds its amount under its resolved name, if it has one. */
  lemma BreakdownAppend(ts: seq<Transaction>, t: Transaction, categories: seq<Category>)
    ensures var m := Breakdown(ts, categories);
      Breakdown(ts + [t], categories) ==
        match CategoryName(t, categories)
        case None => m
        case Some(name) => m[name := (if name in m then m[name] else 0) + t.amount]
  {
    assert (ts + [t])[..|ts|] == ts;
  }

  /** A name is in the breakdown exactly when some transaction resolves to it;
      a transaction with no or an unknown category id adds no key. */
  lemma BreakdownKeys(ts: seq<Transaction>, categories: seq<Category>, name: string)
    ensures name in Breakdown(ts, categories) <==> exists t :: t in ts && CategoryName(t, categories) == Some(name)
  {
    GroupTotalsKeys(ts, NameOf(categories), name);
  }

  /** The rows the summary covers: the date range applies only when both
      bounds are given. */
  function SummaryRows(rows: seq<Transaction>, userId: Uuid, startDate: Option<Date>, endDate: Option<Date>)
    : (r: seq<Transaction>)
    ensures forall t :: t in r ==> t in rows && t.userId == userId
    ensures startDate.Some? && endDate.Some? ==>
      forall t :: t in r ==> TransactionRepository.InRange(t, startDate.value, endDate.value)
    ensures forall t :: t in rows ==> (
      (t.userId == userId
       && (startDate.Some? && endDate.Some? ==> TransactionRepository.InRange(t, startDate.value, endDate.value)))
      ==> t in r)
    ensures TransactionRepository.DateDescending(r)
  {
    if startDate.Some? && endDate.Some? then
      TransactionRepository.FindByUserIdAndDateBetweenOrderByDateDesc(rows, userId, startDate.value, endDate.value)
    else
      TransactionRepository.FindByUserIdOrderByDateDesc(rows, userId)
  }

  /** The summary of a list of transactions. */
  function SummaryOf(ts: seq<Transaction>, categories: seq<Category>): (r: TransactionSummary)
    ensures r.totalIncome == AmountTotal(Filter(ts, IsIncome))
    ensures r.totalExpense == AmountTotal(Filter(ts, IsExpense))
    ensures r.totalIncome + r.totalExpense == AmountTotal(ts)
    ensures r.balance == r.totalIncome - r.totalExpense
    ensures r.transactionCount == |ts|
    ensures forall name :: name in r.categoryBreakdown <==> exists t :: t in ts && CategoryName(t, categories) == Some(name)
    ensures forall name :: name in r.categoryBreakdown ==>
      r.categoryBreakdown[name] == AmountTotal(Filter(ts, FiledUnder(NameOf(categories), name)))
  {
    IncomePlusExpense(ts);
    IncomeTotalIsIncomeRows(ts);
    ExpenseTotalIsExpenseRows(ts);
    var m := Breakdown(ts, categories);
    forall name | name in m
      ensures m[name] == AmountTotal(Filter(ts, FiledUnder(NameOf(categories), name)))
    {
      GroupTotalsValue(ts, NameOf(categories), name);
    }
    forall name ensures name in m <==> exists t :: t in ts && CategoryName(t, categories) == Some(name) {
      BreakdownKeys(ts, categories, name);
    }
    TransactionSummary(IncomeTotal(ts), ExpenseTotal(ts), IncomeTotal(ts) - ExpenseTotal(ts), m, |ts|)
  }

  /** The loop of getTransactionSummary: income and expense totals and the
      per-name breakdown accumulated row by row, then the balance and count. */
  method Summarise(transactions: seq<Transaction>, categories: seq<Category>) returns (r: TransactionSummary)
    ensures r == SummaryOf(transactions, categories)
  {
    var totalIncome: Amount := 0;
    var totalExpense: Amount := 0;
    var categoryBreakdown: map<string, Amount> := map[];
    for i := 0 to |transactions|
      invariant totalIncome == IncomeTotal(transactions[..i])
      invariant totalExpense == ExpenseTotal(transactions[..i])
      invariant categoryBreakdown == Breakdown(transactions[..i], categories)
    {
      var t := transactions[i];
      assert transactions[..i + 1] == transactions[..i] + [t];
      BreakdownAppend(transactions[..i], t, categories);
      if t.kind == INCOME {
        totalIncome := totalIncome + t.amount;
      } else {
        totalExpense := totalExpense + t.amount;
      }
      if t.categoryId.Some? {
        var category := CategoryRepository.FindById(categories, t.categoryId.value);
        if category.Some? {
          var categoryName := category.value.name;
          var sofar := if categoryName in categoryBreakdown then categoryBreakdown[categoryName] else 0;
          categoryBreakdown := categoryBreakdown[categoryName := sofar + t.amount];
        }
      }
    }
    assert transactions[..|transactions|] == transactions;
    var balance := totalIncome - totalExpense;
    r := TransactionSummary(totalIncome, totalExpense, balance, categoryBreakdown, |transactions|);
  }

  class TransactionService {
    /** The transactions table. */
    var rows: seq<Transaction>
    /** The category store the summary resolves names in. */
    const categoryStore: CategoryService.CategoryService

    ghost predicate Valid()
      reads this
    {
      UniqueTransactionIds(rows)
    }

    constructor (categoryStore: CategoryService.CategoryService)
      ensures Valid() && rows == [] && this.categoryStore == categoryStore
    {
      rows := [];
      this.categoryStore := categoryStore;
    }

    /** createTransaction. newId is the id the database generates; today is
        LocalDate.now(). */
    method CreateTransaction(request: TransactionRequest, userId: Uuid, newId: Uuid, today: Date)
      returns (t: Transaction)
      requires Valid()
      requires forall x :: x in rows ==> x.id != newId
      modifies this
      ensures Valid()
      ensures t.id == newId && t.userId == userId
      ensures t.categoryId == request.categoryId && t.amount == request.amount && t.kind == request.kind
      ensures t.description == request.description
      ensures t.date == Some(if request.date.Some? then request.date.value else today)
      ensures rows == old(rows) + [t]
    {
      var date := if request.date.Some? then request.date.value else today;
      t := Transaction(newId, userId, request.categoryId, request.amount, request.kind, request.description, Some(date));
      rows := rows + [t];
    }

    /** updateTransaction: the owner's transaction takes the request's fields,
        the date included even when it is null. */
    method UpdateTransaction(id: Uuid, request: TransactionRequest, userId: Uuid) returns (r: Result<Transaction>)
      requires Valid()
      modifies this
      ensures Valid()
      ensures old(GetTransactionById(rows, id, userId)).Err?
          ==> r == old(GetTransactionById(rows, id, userId)) && rows == old(rows)
      ensures old(GetTransactionById(rows, id, userId)).Ok? ==>
        && r == Ok(Overwrite(old(GetTransactionById(rows, id, userId)).value, request))
        && rows == ReplaceById(old(rows), r.value, TransactionIdOf)
    {
      var found := GetTransactionById(rows, id, userId);
      if found.Err? {
        return found;
      }
      var updated := Overwrite(found.value, request);
      rows := ReplaceById(rows, updated, TransactionIdOf);
      r := Ok(updated);
    }

    /** deleteTransaction */
    method DeleteTransaction(id: Uuid, userId: Uuid) returns (r: Result<()>)
      requires Valid()
      modifies this
      ensures Valid()
      ensures old(GetTransactionById(rows, id, userId)).Err?
          ==> r == Err(old(GetTransactionById(rows, id, userId)).error) && rows == old(rows)
      ensures old(GetTransactionById(rows, id, userId)).Ok? ==> r == Ok(()) && rows == RemoveById(old(rows), id, TransactionIdOf)
    {
      var found := GetTransactionById(rows, id, userId);
      if found.Err? {
        return Err(found.error);
      }
      RemoveKeepsUnique(rows, id);
      rows := RemoveById(rows, id, TransactionIdOf);
      r := Ok(());
    }

    /** getTransactionSummary: the rows are chosen, then summarised in one pass. */
    method GetTransactionSummary(userId: Uuid, startDate: Option<Date>, endDate: Option<Date>)
      returns (r: TransactionSummary)
      ensures r == SummaryOf(SummaryRows(rows, userId, startDate, endDate), categoryStore.rows)
    {
      var transactions := SummaryRows(rows, userId, startDate, endDate);
      r := Summarise(transactions, categoryStore.rows);
    }
  }
}

=== FILE: transactions_page.dfy ===
/** The Transactions page: the list and the form handlers. The API's answer
    is a parameter: Ok with the body of a 2xx answer, or Err when the request
    is rejected. A handler runs to its end in one step; the list refresh it
    starts is reported, not performed. */
module TransactionsPage {
  import opened Wrappers
  import opened Money
  import opened Domain
  import TemplateService

  const InfoToast := "info"
  const SuccessToast := "success"
  const WarningToast := "warning"
  const LoadError := "Error loading transactions"
  const CreateError := "Error creating transaction"
  const UpdateError := "Error updating transaction"
  const DeleteError := "Error deleting transaction"

  /** The body of a 2xx answer to create or update: its message and the
      adviceMessage of its data, when present. */
  datatype Reply = Reply(message: string, adviceMessage: Option<string>)

  /** The advice toast is raised when the reply carries a non-empty advice. */
  predicate HasAdvice(reply: Reply) {
    reply.adviceMessage.Some? && reply.adviceMessage.value != ""
  }

  /** The toast's type for the amount entered in the form. */
  function ToastKind(amount: Amount): (r: string)
    ensures r == WarningToast <==> amount >= HighAmount
    ensures r == SuccessToast <==> amount < HighAmount
  {
    if amount >= HighAmount then WarningToast else SuccessToast
  }

  /** The page and the server draw the line at the same amount: the toast
      warns exactly when the server picked the high advice, whatever the
      transaction's type. */
  lemma ToastAgreesWithAdvice(transactionType: string, amount: Amount)
    ensures ToastKind(amount) == WarningToast
        <==> TemplateService.ExpenseThresholdCall(transactionType, amount).template == TemplateService.HighAdvice
    ensures ToastKind(amount) == SuccessToast
        <==> TemplateService.ExpenseThresholdCall(transactionType, amount).template == TemplateService.GoodAdvice
  {
  }

  class TransactionsPage {
    var transactions: seq<Transaction>
    var loading: bool
    var showForm: bool
    var editing: Option<Transaction>
    var message: string
    var toastMessage: Option<string>
    var toastType: string

    constructor ()
      ensures transactions == [] && loading && !showForm && editing.None? && message == ""
      ensures toastMessage.None? && toastType == InfoToast
    {
      transactions := [];
      loading := true;
      showForm := false;
      editing := None;
      message := "";
      toastMessage := None;
      toastType := InfoToast;
    }

    /** fetchTransactions: the answer's list, [] when it has none. */
    method FetchTransactions(outcome: Result<Option<seq<Transaction>>>)
      modifies this
      ensures !loading
      ensures outcome.Ok? ==>
        transactions == (if outcome.value.Some? then outcome.value.value else []) && message == old(message)
      ensures outcome.Err? ==> transactions == old(transactions) && message == LoadError
      ensures showForm == old(showForm) && editing == old(editing)
      ensures toastMessage == old(toastMessage) && toastType == old(toastType)
    {
      if outcome.Ok? {
        transactions := if outcome.value.Some? then outcome.value.value else [];
      } else {
        message := LoadError;
      }
      loading := false;
    }

    /** The toast step shared by create and update. */
    method ShowAdvice(amount: Amount, reply: Reply)
      modifies this
      ensures HasAdvice(reply) ==> toastType == ToastKind(amount) && toastMessage == reply.adviceMessage
      ensures !HasAdvice(reply) ==> toastType == old(toastType) && toastMessage == old(toastMessage)
      ensures transactions == old(transactions) && loading == old(loading) && showForm == old(showForm)
      ensures editing == old(editing) && message == old(message)
    {
      if reply.adviceMessage.Some? && reply.adviceMessage.value != "" {
        toastType := ToastKind(amount);
        toastMessage := reply.adviceMessage;
      }
    }

    /** handleCreateTransaction. amount is the form's amount; refresh tells
        whether the list is fetched again. */
    method CreateTransaction(amount: Amount, outcome: Result<Reply>) returns (refresh: bool)
      modifies this
      ensures refresh <==> outcome.Ok?
      ensures transactions == old(transactions) && loading == old(loading) && editing == old(editing)
      ensures outcome.Ok? ==>
        && message == outcome.value.message && !showForm
        && (HasAdvice(outcome.value) ==>
              toastType == ToastKind(amount) && toastMessage == outcome.value.adviceMessage)
        && (!HasAdvice(outcome.value) ==> toastType == old(toastType) && toastMessage == old(toastMessage))
      ensures outcome.Err? ==>
        && message == CreateError && showForm == old(showForm)
        && toastType == old(toastType) && toastMessage == old(toastMessage)
    {
      if outcome.Err? {
        message := CreateError;
        return false;
      }
      message := outcome.value.message;
      ShowAdvice(amount, outcome.value);
      showForm := false;
      refresh := true;
    }

    /** handleUpdateTransaction. With no transaction being edited the id
        cannot be read, which fails like a rejected request. */
    method UpdateTransaction(amount: Amount, outcome: Result<Reply>) returns (refresh: bool)
      modifies this
      ensures refresh <==> old(editing).Some? && outcome.Ok?
      ensures transactions == old(transactions) && loading == old(loading) && showForm == old(showForm)
      ensures refresh ==>
        && message == outcome.value.message && editing.None?
        && (HasAdvice(outcome.value) ==>
              toastType == ToastKind(amount) && toastMessage == outcome.value.adviceMessage)
        && (!HasAdvice(outcome.value) ==> toastType == old(toastType) && toastMessage == old(toastMessage))
      ensures !refresh ==>
        && message == UpdateError && editing == old(editing)
        && toastType == old(toastType) && toastMessage == old(toastMessage)
    {
      if editing.None? || outcome.Err? {
        message := UpdateError;
        return false;
      }
      message := outcome.value.message;
      ShowAdvice(amount, outcome.value);
      editing := None;
      refresh := true;
    }

    /** handleDeleteTransaction: nothing at all happens unless the user
        confirms. The answer carries the server's message. */
    method DeleteTransaction(confirmed: bool, outcome: Result<string>) returns (called: bool, refresh: bool)
      modifies this
      ensures called <==> confirmed
      ensures refresh <==> confirmed && outcome.Ok?
      ensures transactions == old(transactions) && loading == old(loading) && showForm == old(showForm)
      ensures editing == old(editing) && toastType == old(toastType) && toastMessage == old(toastMessage)
      ensures !confirmed ==> message == old(message)
      ensures confirmed && outcome.Ok? ==> message == outcome.value
      ensures confirmed && outcome.Err? ==> message == DeleteError
    {
      if !confirmed {
        return false, false;
      }
      called := true;
      if outcome.Ok? {
        message := outcome.value;
        refresh := true;
      } else {
        message := DeleteError;
        refresh := false;
      }
    }
  }
}

=== FILE: wrappers.dfy ===
/** Optional values (Java's null / Optional, JavaScript's undefined) and the
    outcome of an operation that may throw (a RuntimeException and its message). */
module Wrappers {

  datatype Option<+T> = None | Some(value: T) {
    function GetOr(default: T): T {
      match this
      case Some(v) => v
      case None => default
    }
  }

  /** Ok carries the value returned; Err the message of the exception thrown. */
  datatype Result<+T> = Ok(value: T) | Err(error: string)
}
